=== FILE: README.md ===
# ExtratorLivros, modelled in Dafny

`extrator_livros.py` turns a list of book EANs/ISBNs into a six-column spreadsheet. The
columns are EAN, title, author(s), publisher, full price and discounted price.

- Phase 1 reads the metadata record from the Google Books catalog. Any failure gives the
  "Não Encontrado" defaults.
- Phase 2 asks a generative model for the two prices. It retries with exponential back-off
  on HTTP 429, turns numeric answers into strings and copies the full price into a missing
  discounted price.
- `format_currency` normalises each price to the Brazilian form `R$ 1.234,56`.
- `load_eans_from_csv` reads the EAN list from a CSV file, skipping a header row.

This project models the pure core of that pipeline as Dafny functions over immutable
values, and proves what each step promises.

Modules, in dependency order:

- `Wrappers`: `Option`.
- `Text`: Python's `str.replace`, `in`, `rfind`, `strip`, `isdigit` and `join` over `seq<char>`.
- `Numerals`: digit strings, the `,` grouping of `:,.2f`, and `PlainCents`, a reader for
  plain decimal numerals.
- `Json`: parsed JSON values, with Python truthiness and `isinstance(v, (int, float))`.
- `Currency`: `format_currency`.
- `Books`: the metadata record of `search_google_books_api`.
- `Prices`: the retry loop and the answer post-processing of `call_gemini_api_otimizada`.
- `Pipeline`: `extract_book_data_full` and `process_ean_list_to_spreadsheet`.
- `CsvInput`: the row filter of `load_eans_from_csv`.

Everything outside the program's own logic is a parameter:

- The catalog reply is a `BooksReply`.
- Each model request's outcome is a `Reply`: HTTP status plus candidate text, or a raised
  request.
- `json.loads` is `parse: string -> Option<Json>`.
- `float(...)` followed by the two-decimal rounding of `:,.2f` is
  `toCents: string -> Option<int>`, counted in centavos.
- The `GEMINI_API_KEY` environment variable is the `apiKey` argument. The empty string
  stands for a missing key.
- `time.sleep` is not performed. The pauses are returned as a list instead.

Two details of the code shape the model:

- After a 429 the code sleeps `2 ** attempt` seconds, the third 429 included. Three 429
  replies in a row therefore sleep 1, 2 and 4 seconds before the call gives up.
- The answer values turned into strings are exactly those that pass
  `isinstance(v, (int, float))`. Python's `bool` is a subclass of `int`, so JSON `true`
  becomes `"True"`. Strings, lists, objects and `null` are kept as they are.

## Model

| member | source | states |
|---|---|---|
| Currency.FormatCurrency | extrator_livros.py:32-65 | Empty text or text containing "N/A" is returned unchanged. Text whose cleaned numeral the number reader refuses is returned unchanged. Otherwise the result is "R$ " followed by the Brazilian rendering of the amount read. |
| Currency.StripSymbols | extrator_livros.py:42 | After removing "R$", "$" and the surrounding whitespace, no "$" is left. |
| Currency.StripSymbolsPlain | extrator_livros.py:42 | Text without "$" is only stripped of its surrounding whitespace: nothing else is removed. |
| Currency.StripSymbolsReal | extrator_livros.py:42 | A leading "R$ " is removed and the rest of the text, free of "R" and "$", is kept and only stripped. |
| Currency.StripSymbolsDollar | extrator_livros.py:42 | Text without "R" loses every "$" and is then only stripped: everything else survives, so "$1,234.56" becomes "1,234.56". |
| Currency.Disambiguate | extrator_livros.py:45-55 | The decided numeral holds no comma. A numeral without a comma is left unchanged. |
| Currency.DisambiguateKeeps | extrator_livros.py:45-55 | Deciding the separators keeps the digits in order and keeps the digits after the last separator. The number of points left equals the number of decimal marks of the kind that is rightmost. |
| Currency.SwapChainSwaps | extrator_livros.py:60 | On text without "#", the chain of replacing "." by "#", then "," by ".", then "#" by "," exchanges "." and "," and changes nothing else. |
| Currency.NoPlaceholder | extrator_livros.py:60 | The US rendering holds no "#", so the placeholder in the replace chain cannot collide with it. |
| Currency.RenderingSwaps | extrator_livros.py:60 | The replace chain applied to "R$ " plus the `:,.2f` rendering of an amount gives "R$ " plus its Brazilian rendering: "." between thousands and "," before the centavos. |
| Currency.FormattedHasNoMarker | extrator_livros.py:37-38 | A formatted amount is never empty and never contains "N/A", so it is never passed through as a marker. |
| Currency.FormattedStripsToBr | extrator_livros.py:42 | Stripping the symbols from a formatted amount leaves exactly its Brazilian rendering. |
| Currency.BrStyleDisambiguates | extrator_livros.py:45-55 | Deciding the separators of a Brazilian rendering gives the plain decimal numeral of the same amount. |
| Currency.FormattedIsFixed | extrator_livros.py:32-65 | When the number reader reads plain numerals exactly, a formatted amount formats to itself. |
| Currency.FormatIdempotent | extrator_livros.py:32-65 | When the number reader reads back what it produced (an amount it reads from some text, it also reads from that amount's plain numeral), formatting twice gives the same text as formatting once. |
| Currency.UsStyleDisambiguates | extrator_livros.py:45-55 | Deciding the separators of a US-style rendering, "1,234.56", deletes its thousands commas and gives the plain decimal numeral of the same amount. |
| Currency.FormatsDollarUsStyle | extrator_livros.py:32-65 | When the number reader reads plain numerals exactly, a US-dollar amount such as "$1,234.56" is normalised to "R$ " plus the Brazilian rendering of the same amount. |
| Currency.FormatsUsStyle | extrator_livros.py:32-65 | When the number reader reads plain numerals exactly, a bare US-style amount such as "1,234.56" is normalised to "R$ " plus the Brazilian rendering of the same amount. |
| Currency.FormatsBrStyle | extrator_livros.py:32-65 | When the number reader reads plain numerals exactly, a bare Brazilian amount such as "49,90" or "1.234,56" gains "R$ " and is otherwise kept. |
| Currency.UsStyleUnstripped | extrator_livros.py:42 | A bare US-style rendering has no symbols or surrounding whitespace to remove. |
| Currency.BrStyleUnstripped | extrator_livros.py:42 | A bare Brazilian rendering has no symbols or surrounding whitespace to remove. |
| Currency.FormatIdempotentPlain | extrator_livros.py:58-60 | With the plain decimal reader, formatting is idempotent on every input. |
| Numerals.CanonicalReadsBack | extrator_livros.py:58 | The plain decimal numeral of any amount, with sign, digits, point and two digits, reads back as that amount. |
| Numerals.UsStyleShape | extrator_livros.py:58-60 | The `:,.2f` rendering of an amount is its plain decimal numeral with commas inserted, and its point before the centavos comes after every comma. |
| Numerals.GroupKeepsDigits | extrator_livros.py:60 | The thousands grouping of `:,.2f` only inserts separators: removing them gives the plain digits. |
| Numerals.GroupShape | extrator_livros.py:60 | A grouped numeral starts and ends with a digit and holds only digits and the separator. It holds the separator exactly when the amount has four or more digits. |
| Books.DefaultRecord | extrator_livros.py:86-91 | The starting record carries the EAN and "Não Encontrado" in the title, author and publisher fields. |
| Books.ComposeTitle | extrator_livros.py:104-115 | A title and subtitle, both non-empty, are joined by " - ". A non-empty title alone is the title. Otherwise the sentinel is used. |
| Books.JoinAuthors | extrator_livros.py:119 | A non-empty author list is joined with ", ". An empty or missing list gives the sentinel. |
| Books.SearchBooks | extrator_livros.py:86-135 | The record always carries the EAN. Every failure gives the default record. A found item sets title, authors and publisher as the three rules say, with the sentinel for an empty publisher. |
| Books.AuthorsRoundTrip | extrator_livros.py:119 | Author names without commas are recovered by splitting the joined field at ", ": the join loses nothing. |
| Prices.StripFences | extrator_livros.py:188 | The cleaned answer text contains no "```" at all, even when removing the fences brings backticks together. |
| Prices.StripFencesPlain | extrator_livros.py:188 | Answer text without backticks is only stripped of its surrounding whitespace: its content survives. |
| Prices.StripFencesBlock | extrator_livros.py:186-188 | A block "```json" + b + "```" with no backticks in `b` is cleaned to `b`, stripped: the JSON inside the fences is what gets parsed. |
| Prices.NoFenceLeft | extrator_livros.py:188 | After every "```" is removed, no "```" is left. A character other than a backtick is copied to the front of the result. |
| Prices.Coerce | extrator_livros.py:199-201 | No value is a number afterwards. An integer becomes its `str()` text `IntText`, a float its `str()` text, and a boolean "True" or "False". Every other value is unchanged. |
| Prices.IntText | extrator_livros.py:200-201 | Python's `str()` of an integer: the decimal digits of a non-negative value, and "-" followed by the digits of the magnitude for a negative one. |
| Prices.IntTextCanonical | extrator_livros.py:200-201 | The text of an integer starts with "0" only for zero, which is "0", and no digit after the sign of a non-zero value is a leading zero. |
| Numerals.DigitsNoLeadingZero | extrator_livros.py:200-201 | The decimal digits of a number begin with "0" exactly when the number is zero. |
| Prices.CoerceAll | extrator_livros.py:199-201 | The keys are kept, and every value is coerced. |
| Prices.FillDiscount | extrator_livros.py:204-205 | A full price without a discounted price gains a discounted price equal to it. No existing entry changes, and no other key is added. |
| Prices.PostProcess | extrator_livros.py:188-208 | The answer is non-empty exactly when the cleaned text parses to a non-empty object. Its keys are that object's keys, plus the discounted price when a full price is present. Its values are coerced, and none is a number. |
| Prices.ProcessTwice | extrator_livros.py:199-205 | Coercing and filling a second time changes nothing. |
| Prices.IntPriceReadsBack | extrator_livros.py:200-201 | An integer price turned into text by `str()` reads back as that many whole reais. |
| Prices.Attempt | extrator_livros.py:174-235 | From attempt `i`, at most `MaxRetries - i` requests are made, and at least one if any attempt is left. Back-off delays are never more than the requests made, and the j-th delay is `2^(i+j)`. |
| Prices.CallGemini | extrator_livros.py:152-235 | A missing key makes no request and returns an empty answer. There are at most three requests, and the delays are 1, 2, 4, … in order. No price is a number, and a full price always comes with a discounted price. |
| Prices.AttemptClosedForm | extrator_livros.py:174-235 | The loop in closed form. Each 429 costs one request and a delay of `2^j`. The first other reply settles the loop with one more request and decides the answer: the post-processed text for a 200, nothing otherwise. |
| Prices.ThreeRateLimits | extrator_livros.py:217-222 | Three 429 replies give delays 1, 2 and 4, three requests and an empty answer. |
| Prices.FailureStops | extrator_livros.py:223-232 | A status other than 200 or 429, or a failed request, ends the loop after one request with an empty answer. |
| Prices.LaterRepliesUnread | extrator_livros.py:174-235 | Replies after the one that settles the loop never affect the result. |
| Prices.AnswerAfterRateLimits | extrator_livros.py:174-222 | A 200 at attempt `k`, after `k` rate limits, returns its post-processed answer after `k + 1` requests and the delays `1, …, 2^(k-1)`. |
| Pipeline.PriceOr | extrator_livros.py:256-257 | A present price is taken as it is. A missing one becomes "N/A (Fase 2 Falhou)". |
| Pipeline.FallbackSurvivesFormatting | extrator_livros.py:256-261 | The phase-2 fallback contains "N/A", so the normaliser returns it unchanged. |
| Pipeline.FormatPriceAsWritten | extrator_livros.py:260-261 | As written: a string price is normalised, and a falsy value is kept. A non-empty list or object is kept only when it holds "N/A" and raises otherwise. A truthy number raises. |
| Pipeline.FormatPrice | extrator_livros.py:260-261 | Corrected formatting (see the Findings row for line 62): a string price is normalised. Every other value is kept unchanged, so a value is a number afterwards exactly when it was before. |
| Pipeline.ExtractBookDataFull | extrator_livros.py:241-273 | With the corrected price formatting of `FormatPrice`, the record carries the EAN and the phase-1 title, authors and publisher. Each price is the fallback when phase 2 did not supply it, and the normalised phase-2 value otherwise. The trace is the phase-2 call's. |
| Pipeline.PricesNeverNumbers | extrator_livros.py:198-201 | No price cell of the record holds a JSON number. |
| Pipeline.NoKeyFallback | extrator_livros.py:152-153 | Without an API key both price cells hold the phase-2 fallback. |
| Pipeline.ExtractAsWritten | extrator_livros.py:241-273 | As written, a merge that does not raise carries the EAN. |
| Pipeline.AsWrittenAgrees | extrator_livros.py:241-273 | Whenever the merge as written does not raise, it produces exactly the record of the model. |
| Pipeline.ListPriceAborts | extrator_livros.py:260 | A model answer, after any number of rate limits, whose full price is a non-empty list without "N/A" (such as ["49,90"]) makes the merge as written raise. The model keeps the list in both price cells. An empty list or one holding "N/A" returns at line 37 and does not raise. |
| Pipeline.DiscountMirrorsFull | extrator_livros.py:204-205 | An answer naming only the full price, given after any number of rate limits, shows the same value in both price cells. |
| Pipeline.Cells | extrator_livros.py:337-344 | A record becomes six cells in header order, starting with the EAN. |
| Pipeline.HeaderRow | extrator_livros.py:324-326 | The first row holds the six column titles. |
| Pipeline.BatchRow | extrator_livros.py:334-345 | The row of the k-th EAN has six cells and starts with that EAN. |
| Pipeline.Tabulate | extrator_livros.py:334-345 | The loop appends one row per index, in order. |
| Pipeline.NoCourtesyInBackoff | extrator_livros.py:218 | Back-off delays are powers of two and never equal the 5-second courtesy pause. |
| Pipeline.CollectPauses | extrator_livros.py:347-349 | With a key there is exactly one 5-second courtesy pause per EAN, and without a key there are no pauses and no requests. At most three model requests are made per EAN. |
| Pipeline.ProcessEanList | extrator_livros.py:320-351 | With the corrected price formatting of `FormatPrice`, the table is the header row followed by one row per EAN, in input order. Each row is the six cells of that EAN's combined record. The pauses and request counts are those of `CollectPauses`. |
| CsvInput.Kept | extrator_livros.py:303-304 | A cell contributes at most one EAN. It contributes exactly when something is left after stripping, and what it contributes is the stripped cell. |
| CsvInput.NonBlankCells | extrator_livros.py:295 | A numeric first row contributes at most one clean EAN per cell. |
| CsvInput.NonBlankCellsMembers | extrator_livros.py:295 | An EAN comes from a numeric first row exactly when one of its cells, stripped, is that non-empty EAN. |
| CsvInput.NonBlankCellsAppend | extrator_livros.py:295 | The cells are read left to right: the EANs of two runs of cells are the EANs of each run, in order. |
| CsvInput.NonBlankCellsOne | extrator_livros.py:295 | One cell contributes its stripped text when that is non-empty, and nothing otherwise. |
| CsvInput.LaterEans | extrator_livros.py:301-304 | The rows after the first give at most one clean EAN each. |
| CsvInput.LaterEansMembers | extrator_livros.py:301-304 | An EAN comes from the later rows exactly when some such row has it, stripped and non-empty, as its first cell. |
| CsvInput.LaterEansAppend | extrator_livros.py:301-304 | The EANs of two runs of rows are the EANs of each run, in order. |
| CsvInput.LoadEans | extrator_livros.py:288-304 | As written, every EAN is non-empty and stripped, and an empty file gives none. A header row is skipped. A numeric first row contributes its non-blank cells, stripped and in order, followed by the first-cell EANs of the later rows. |
| CsvInput.LoadEansIntended | extrator_livros.py:288-304 | Corrected loader: every EAN is clean, and no row gives more than one. |
| CsvInput.DigitsAreStripped | extrator_livros.py:290 | A first cell that passes `isdigit` has no surrounding whitespace. |
| CsvInput.IntendedFirstRowLikeOthers | extrator_livros.py:294 | The corrected loader treats a numeric first row exactly like every later row. |
| CsvInput.OneColumnAgrees | extrator_livros.py:288-304 | For a one-column file, the loader as written and the corrected loader agree. |
| CsvInput.TwoCellFirstRow | extrator_livros.py:295 | The first row ["1", "2"] yields two EANs as written and one with the corrected loader. |

## Left out

- The HTTP requests, `raise_for_status`, `response.json()` and the walk from the response body
  to the first candidate's text. Their outcomes arrive as `BooksReply` and `Reply` values.
- Timeouts and the request payload and prompt. They do not affect what is computed.
- `json.loads` is the parameter `parse`. The model does not parse JSON text.
- `float(...)` and the rounding of `:,.2f` are the parameter `toCents`, over whole centavos.
  `PlainCents` is one concrete reader, exact on plain decimals with at most two fraction digits.
- Currency.FormatCurrency: infinities and NaN are not modelled, because `toCents` yields a
  whole number of centavos. In the source, "inf" and "nan" render as "R$ inf" and "R$ nan".
- Currency.FormatCurrency: negative zero is not modelled. A whole number of centavos has no
  sign at zero. In the source, "-0", "-0,00" or "-0,001" reads as a negative float that
  rounds to zero, and `:,.2f` renders it "-0.00", so the result is "R$ -0,00". The model
  gives "R$ 0,00".
- Numerals.UsStyleShape: `UsStyle`, the model of `:,.2f`, never renders "-0.00", for the
  same reason.
- Pipeline.FormatPrice: it is the corrected formatting. As written, a non-empty list or object
  price without "N/A" raises `AttributeError` out of the whole batch. `FormatPriceAsWritten`
  models that, and `FormatAgrees` ties the two together wherever the code does not raise.
- Pipeline.ExtractBookDataFull: it uses the corrected `FormatPrice`. As written, the merge
  raises on the prices above. `ExtractAsWritten` models that, and `AsWrittenAgrees` ties the
  two together.
- Pipeline.ProcessEanList: it uses the corrected merge. As written, a price that raises
  aborts the batch, and no table is produced.
- Python floats inside the model's answer are carried by their `str()` text (`JFloat`). The
  model does not compute float-to-text conversion.
- Prices.IntPriceReadsBack: the 4300-digit limit of Python's `str(int)` is not modelled.
- `isdigit` and `strip` use their ASCII and Unicode-whitespace definitions only. Other
  Unicode digit characters are not counted as digits.
- Logging, the `print` warning before the batch, the `tabulate` display, the `.env` loading
  and the `__main__` driver are not modelled. They produce output only.
- `time.sleep` is not performed. The delays are returned in a list, in order.
- Opening, decoding and splitting the CSV file are not modelled. A file that cannot be read
  yields no EANs in the source, as the empty row list does in the model.
- The `metadata.get(..., "N/A")` defaults at lines 266-268 are never used, because the
  record always holds all three keys. The model takes the fields directly.
- A catalog item whose `authors` list holds a non-string makes `join` raise after the title
  was set. The source then returns the record with the title filled in and the other fields
  still at their defaults. The model's authors are strings, so that path is not modelled.
- A model request with no recorded reply counts as a failed request. A catalog lookup with no
  recorded reply counts as a request error.
- The batch loop is modelled as two passes over the EANs, one building the rows and one
  collecting the pauses. The steps are pure, so the result is the same as the interleaved
  loop.

## Findings

| source | as written | input that shows it | evidently intended | confidence | as-written member | corrected member |
|---|---|---|---|---|---|---|
| extrator_livros.py:62 | `format_currency` catches only `ValueError`. A non-empty list or object price without "N/A" reaches `.replace` and raises `AttributeError`, which aborts the whole batch. | Model answer `{"precoSemDesconto": ["49,90"]}` | Values that are not strings are kept, and the batch goes on | not executed | Pipeline.ListPriceAborts | Pipeline.FormatPrice |
| extrator_livros.py:295 | A numeric first row contributes every non-blank cell. Every later row contributes only its first cell. | CSV first row `1,2` | The comment says the first row is put back to be processed like the others, so only its first cell counts | not executed | CsvInput.TwoCellFirstRow | CsvInput.LoadEansIntended |

=== FILE: books.dfy ===
/** Phase 1 of the extractor, `search_google_books_api`: the metadata record built from the
    first catalog item, or the default record on every failure.

    The HTTP request, `raise_for_status` and `response.json()` are outside the model; their
    outcome arrives as a `BooksReply`. */
module Books {
  import opened Wrappers
  import opened Text

  /** The sentinel the record carries for every field the catalog did not supply. */
  const NotFound: string := "Não Encontrado"

  /** The `volumeInfo` of the first item: fields the catalog may omit are `None`; a missing
      `authors` list is the empty list. */
  datatype VolumeInfo = VolumeInfo(
    title: Option<string>,
    subtitle: Option<string>,
    authors: seq<string>,
    publisher: Option<string>)

  datatype BooksFailure =
    | NoItems        // `items` missing or empty
    | RequestError   // connection failure or a non-success status
    | Unexpected     // any other exception, such as a body that is not JSON

  datatype BooksReply = Found(first: VolumeInfo) | Failed(reason: BooksFailure)

  datatype Metadata = Metadata(ean: string, title: string, authors: string, publisher: string)

  /** Python truthiness of an optional string field: present and non-empty. */
  predicate Given(o: Option<string>) {
    o.Some? && o.value != ""
  }

  /** The record the lookup starts from and falls back to. */
  function DefaultRecord(ean: string): (m: Metadata)
    ensures m.ean == ean
    ensures m.title == NotFound && m.authors == NotFound && m.publisher == NotFound
  {
    Metadata(ean, NotFound, NotFound, NotFound)
  }

  /** Title and subtitle joined by " - ", the title alone, or the sentinel. */
  function ComposeTitle(info: VolumeInfo): (t: string)
    ensures Given(info.title) && Given(info.subtitle) ==>
      t == info.title.value + " - " + info.subtitle.value
    ensures Given(info.title) && !Given(info.subtitle) ==> t == info.title.value
    ensures !Given(info.title) ==> t == NotFound
  {
    if Given(info.title) && Given(info.subtitle) then info.title.value + " - " + info.subtitle.value
    else if Given(info.title) then info.title.value
    else NotFound
  }

  /** The author names joined by ", ", or the sentinel for an empty list. */
  function JoinAuthors(authors: seq<string>): (r: string)
    ensures authors == [] ==> r == NotFound
    ensures authors != [] ==> r == Join(authors, ", ")
  {
    if authors != [] then Join(authors, ", ") else NotFound
  }

  function SearchBooks(ean: string, reply: BooksReply): (m: Metadata)
    ensures m.ean == ean
    ensures reply.Failed? ==> m == DefaultRecord(ean)
    ensures reply.Found? ==> m.title == ComposeTitle(reply.first)
    ensures reply.Found? ==> m.authors == JoinAuthors(reply.first.authors)
    ensures reply.Found? && Given(reply.first.publisher) ==> m.publisher == reply.first.publisher.value
    ensures reply.Found? && !Given(reply.first.publisher) ==> m.publisher == NotFound
  {
    match reply
    case Failed(_) => DefaultRecord(ean)
    case Found(info) =>
      Metadata(ean, ComposeTitle(info), JoinAuthors(info.authors),
               if Given(info.publisher) then info.publisher.value else NotFound)
  }

  // ---------------------------------------------------------------------
  // Reading the record back
  // ---------------------------------------------------------------------

  /** The position of the first ", " in `s`, if any. */
  function FindSep(s: string): (k: Option<nat>)
    ensures k.Some? ==> k.value + 2 <= |s| && s[k.value..k.value + 2] == ", "
    decreases |s|
  {
    if |s| < 2 then None
    else if s[..2] == ", " then Some(0)
    else match FindSep(s[1..])
      case None => None
      case Some(k) => Some(k + 1)
  }

  /** Splits a joined author list at every ", ". */
  function SplitAuthors(s: string): seq<string>
    decreases |s|
  {
    match FindSep(s)
    case None => [s]
    case Some(k) => [s[..k]] + SplitAuthors(s[k + 2..])
  }

  lemma {:induction false} FindSepAfterName(name: string, rest: string)
    requires ',' !in name
    ensures FindSep(name + ", " + rest) == Some(|name|)
    decreases |name|
  {
    var s := name + ", " + rest;
    if name == [] {
      assert s[..2] == ", ";
    } else {
      assert s[0] == name[0];
      assert s[..2] != ", " by {
        assert s[..2][0] == name[0];
      }
      assert s[1..] == name[1..] + ", " + rest;
      FindSepAfterName(name[1..], rest);
    }
  }

  lemma {:induction false} FindSepNone(name: string)
    requires ',' !in name
    ensures FindSep(name) == None
    decreases |name|
  {
    if |name| >= 2 {
      assert name[..2][0] == name[0];
      FindSepNone(name[1..]);
    }
  }

  /** Author names without commas are recovered from the joined field: `", ".join` loses
      nothing. */
  lemma {:induction false} AuthorsRoundTrip(authors: seq<string>)
    requires authors != []
    requires forall i :: 0 <= i < |authors| ==> ',' !in authors[i]
    ensures SplitAuthors(JoinAuthors(authors)) == authors
    decreases |authors|
  {
    if |authors| == 1 {
      FindSepNone(authors[0]);
    } else {
      var rest := Join(authors[1..], ", ");
      FindSepAfterName(authors[0], rest);
      var s := authors[0] + ", " + rest;
      assert s[..|authors[0]|] == authors[0];
      assert s[|authors[0]| + 2..] == rest;
      AuthorsRoundTrip(authors[1..]);
      assert [authors[0]] + authors[1..] == authors;
    }
  }
}

=== FILE: csv_input.dfy ===
/** The row filter of `load_eans_from_csv`, over rows the CSV reader has already split into
    cells. Opening and decoding the file are outside the model; a file that cannot be read
    yields no EANs in the source, which the empty row list models as well. */
module CsvInput {
  import opened Text

  /** An EAN as the loader keeps it: non-empty, with no whitespace at either end. */
  predicate Clean(e: string) {
    e != [] && !IsSpace(e[0]) && !IsSpace(e[|e| - 1])
  }

  /** A kept EAN is its own stripped form. */
  lemma CleanIsStripped(e: string)
    requires Clean(e)
    ensures Strip(e) == e
  {
    StripTrimmed(e);
  }

  predicate AllClean(r: seq<string>) {
    forall i :: 0 <= i < |r| ==> Clean(r[i])
  }

  lemma AllCleanAppend(a: seq<string>, b: seq<string>)
    requires AllClean(a) && AllClean(b)
    ensures AllClean(a + b)
  {
    forall i | 0 <= i < |a + b|
      ensures Clean((a + b)[i])
    {
      if i < |a| {
        assert (a + b)[i] == a[i];
      } else {
        assert (a + b)[i] == b[i - |a|];
      }
    }
  }

  /** The first row is taken for data when its first cell, unstripped, is all digits. */
  predicate LooksNumeric(row: seq<string>) {
    row != [] && IsDigits(row[0])
  }

  /** A cell stripped, kept only when something is left. */
  function Kept(cell: string): (r: seq<string>)
    ensures |r| <= 1
    ensures forall e :: e in r <==> Strip(cell) != [] && e == Strip(cell)
  {
    if Strip(cell) != [] then [Strip(cell)] else []
  }

  lemma KeptClean(cell: string)
    ensures AllClean(Kept(cell))
  {
    var t := Strip(cell);
    if t != [] {
      assert Clean(t);
      assert Kept(cell) == [t];
    } else {
      assert Kept(cell) == [];
    }
  }

  /** What a row after the first contributes: its stripped first cell, when non-blank. */
  function FirstCell(row: seq<string>): (r: seq<string>)
    ensures |r| <= 1
    ensures AllClean(r)
  {
    if row == [] then [] else KeptClean(row[0]); Kept(row[0])
  }

  /** Every non-blank cell of a row, stripped, in order. */
  function NonBlankCells(cells: seq<string>): (r: seq<string>)
    ensures |r| <= |cells|
    ensures AllClean(r)
  {
    if cells == [] then []
    else
      var rest := NonBlankCells(cells[1..]);
      KeptClean(cells[0]);
      AllCleanAppend(Kept(cells[0]), rest);
      Kept(cells[0]) + rest
  }

  /** The loop over the rows after the first. */
  function LaterEans(rows: seq<seq<string>>): (r: seq<string>)
    ensures |r| <= |rows|
    ensures AllClean(r)
  {
    if rows == [] then []
    else
      var rest := LaterEans(rows[1..]);
      AllCleanAppend(FirstCell(rows[0]), rest);
      FirstCell(rows[0]) + rest
  }

  /** The loader as written: a numeric first row contributes all its non-blank cells. */
  function LoadEans(rows: seq<seq<string>>): (r: seq<string>)
    ensures AllClean(r)
    ensures rows == [] ==> r == []
    ensures rows != [] && !LooksNumeric(rows[0]) ==> r == LaterEans(rows[1..])
    ensures rows != [] && LooksNumeric(rows[0]) ==> r == NonBlankCells(rows[0]) + LaterEans(rows[1..])
  {
    if rows == [] then []
    else if LooksNumeric(rows[0]) then
      AllCleanAppend(NonBlankCells(rows[0]), LaterEans(rows[1..]));
      NonBlankCells(rows[0]) + LaterEans(rows[1..])
    else LaterEans(rows[1..])
  }

  /** The loader as its comment describes it: a numeric first row is handed back to the
      loop and contributes its first cell like every other row. */
  function LoadEansIntended(rows: seq<seq<string>>): (r: seq<string>)
    ensures AllClean(r)
    ensures |r| <= |rows|
  {
    if rows == [] then []
    else if LooksNumeric(rows[0]) then
      AllCleanAppend(FirstCell(rows[0]), LaterEans(rows[1..]));
      FirstCell(rows[0]) + LaterEans(rows[1..])
    else LaterEans(rows[1..])
  }

  // ---------------------------------------------------------------------
  // Facts
  // ---------------------------------------------------------------------

  /** An EAN comes from the rows after the first exactly when some such row has it, stripped,
      as its non-blank first cell. */
  lemma {:induction false} LaterEansMembers(rows: seq<seq<string>>, e: string)
    ensures e in LaterEans(rows) <==> SomeRowGives(rows, e)
    decreases |rows|
  {
    if rows != [] {
      LaterEansMembers(rows[1..], e);
      FirstCellGives(rows[0], e);
      SomeRowGivesCons(rows, e);
      assert LaterEans(rows) == FirstCell(rows[0]) + LaterEans(rows[1..]);
    }
  }

  predicate SomeRowGives(rows: seq<seq<string>>, e: string) {
    exists k :: 0 <= k < |rows| && Gives(rows[k], e)
  }

  lemma FirstCellGives(row: seq<string>, e: string)
    ensures e in FirstCell(row) <==> Gives(row, e)
  {
  }

  lemma SomeRowGivesCons(rows: seq<seq<string>>, e: string)
    requires rows != []
    ensures SomeRowGives(rows, e) <==> Gives(rows[0], e) || SomeRowGives(rows[1..], e)
  {
    if SomeRowGives(rows[1..], e) {
      var k :| 0 <= k < |rows[1..]| && Gives(rows[1..][k], e);
      assert rows[k + 1] == rows[1..][k];
    }
    if SomeRowGives(rows, e) {
      var k :| 0 <= k < |rows| && Gives(rows[k], e);
      if k > 0 {
        assert rows[1..][k - 1] == rows[k];
      }
    }
  }

  /** The row's first cell, stripped, is the non-empty `e`. */
  predicate Gives(row: seq<string>, e: string) {
    row != [] && e != [] && Strip(row[0]) == e
  }

  /** Rows are read as a stream: the EANs of two runs of rows are the EANs of each, in order. */
  lemma {:induction false} LaterEansAppend(a: seq<seq<string>>, b: seq<seq<string>>)
    ensures LaterEans(a + b) == LaterEans(a) + LaterEans(b)
    decreases |a|
  {
    if a == [] {
      assert a + b == b;
    } else {
      assert (a + b)[1..] == a[1..] + b;
      LaterEansAppend(a[1..], b);
    }
  }

  /** An EAN comes from a numeric first row exactly when one of its cells, stripped, is
      that non-empty EAN. */
  lemma {:induction false} NonBlankCellsMembers(cells: seq<string>, e: string)
    ensures e in NonBlankCells(cells) <==> e != [] && SomeCellGives(cells, e)
    decreases |cells|
  {
    if cells != [] {
      NonBlankCellsMembers(cells[1..], e);
      SomeCellGivesCons(cells, e);
      assert NonBlankCells(cells) == Kept(cells[0]) + NonBlankCells(cells[1..]);
    }
  }

  predicate SomeCellGives(cells: seq<string>, e: string) {
    exists j :: 0 <= j < |cells| && Strip(cells[j]) == e
  }

  lemma SomeCellGivesCons(cells: seq<string>, e: string)
    requires cells != []
    ensures SomeCellGives(cells, e) <==> Strip(cells[0]) == e || SomeCellGives(cells[1..], e)
  {
    SomeMapsToCons(cells, Strip, e);
  }

  /** Some element of `xs` is mapped by `f` to `e`: the head, or some element of the tail. */
  lemma SomeMapsToCons(xs: seq<string>, f: string -> string, e: string)
    requires xs != []
    ensures (exists j :: 0 <= j < |xs| && f(xs[j]) == e)
      <==> f(xs[0]) == e || (exists j :: 0 <= j < |xs[1..]| && f(xs[1..][j]) == e)
  {
    if exists j :: 0 <= j < |xs[1..]| && f(xs[1..][j]) == e {
      var j :| 0 <= j < |xs[1..]| && f(xs[1..][j]) == e;
      assert xs[j + 1] == xs[1..][j];
    }
    if exists j :: 0 <= j < |xs| && f(xs[j]) == e {
      var j :| 0 <= j < |xs| && f(xs[j]) == e;
      if j > 0 {
        assert xs[1..][j - 1] == xs[j];
      }
    }
  }

  /** The cells of a row are read left to right: the EANs of two runs of cells are the EANs
      of each, in order. */
  lemma {:induction false} NonBlankCellsAppend(a: seq<string>, b: seq<string>)
    ensures NonBlankCells(a + b) == NonBlankCells(a) + NonBlankCells(b)
    decreases |a|
  {
    if a == [] {
      assert a + b == b;
    } else {
      assert (a + b)[1..] == a[1..] + b;
      NonBlankCellsAppend(a[1..], b);
    }
  }

  /** One cell contributes its stripped text when that is non-empty, and nothing otherwise. */
  lemma NonBlankCellsOne(cell: string)
    ensures NonBlankCells([cell]) == (if Strip(cell) != [] then [Strip(cell)] else [])
  {
    assert [cell][1..] == [];
  }

  /** A digit string has no surrounding whitespace. */
  lemma DigitsAreStripped(s: string)
    requires IsDigits(s)
    ensures Strip(s) == s
  {
    assert !IsSpace(s[0]) && !IsSpace(s[|s| - 1]);
    StripTrimmed(s);
  }

  /** The intended loader treats a numeric first row exactly like the rows after it. */
  lemma IntendedFirstRowLikeOthers(rows: seq<seq<string>>)
    requires rows != [] && LooksNumeric(rows[0])
    ensures LoadEansIntended(rows) == LaterEans(rows)
  {
    DigitsAreStripped(rows[0][0]);
  }

  /** For a one-column file the loader as written and the intended loader agree. */
  lemma OneColumnAgrees(rows: seq<seq<string>>)
    requires forall k :: 0 <= k < |rows| ==> |rows[k]| <= 1
    ensures LoadEans(rows) == LoadEansIntended(rows)
  {
    if rows != [] && LooksNumeric(rows[0]) {
      var row := rows[0];
      assert |row| == 1;
      assert row[1..] == [];
      assert NonBlankCells(row) == FirstCell(row);
    }
  }

  /** A numeric first row with two cells yields two EANs from one row as written, one from
      the intended loader. */
  lemma TwoCellFirstRow()
    ensures LoadEans([["1", "2"]]) == ["1", "2"]
    ensures LoadEansIntended([["1", "2"]]) == ["1"]
  {
    var row := ["1", "2"];
    var rows: seq<seq<string>> := [row];
    DigitsAreStripped("1");
    DigitsAreStripped("2");
    assert Kept("1") == ["1"];
    assert Kept("2") == ["2"];
    assert row[1..] == ["2"];
    assert row[1..][1..] == [];
    assert NonBlankCells(row[1..]) == ["2"];
    assert NonBlankCells(row) == ["1", "2"];
    assert rows[1..] == [];
    assert LooksNumeric(row);
  }
}

=== FILE: currency.dfy ===
/** `format_currency`: reads a loosely written price and renders it the Brazilian way,
    `R$ 1.234,56`, or hands the text back unchanged when it is empty, is marked "N/A",
    or does not read as a number.

    Python's `float(...)` followed by the two-decimal rounding of `:,.2f` is the parameter
    `toCents`: it maps the cleaned text to a whole number of centavos, or to `None` where
    `float` raises `ValueError`. */
module Currency {
  import opened Wrappers
  import opened Text
  import opened Numerals

  predicate IsSep(c: char) {
    c == ',' || c == '.'
  }

  /** What follows the rightmost separator (all of `s` when it has none). */
  function AfterLastSep(s: string): string {
    if s == [] then []
    else if IsSep(s[|s| - 1]) then []
    else AfterLastSep(s[..|s| - 1]) + [s[|s| - 1]]
  }

  /** `s` with both kinds of separator removed. */
  function Unseparated(s: string): string {
    Drop(Drop(s, ','), '.')
  }

  /** The kind of the rightmost separator, `.` when there is none. */
  function DecimalMark(s: string): char {
    if RFind(s, ',') > RFind(s, '.') then ',' else '.'
  }

  /** Removes `R$`, then `$`, then the surrounding whitespace. */
  function StripSymbols(raw: string): (r: string)
    ensures '$' !in r
  {
    var noReal := Replace(raw, "R$", "");
    ReplaceDeleteChar(noReal, '$');
    StripKeepsAbsentChar(Drop(noReal, '$'), '$');
    Strip(Replace(noReal, "$", ""))
  }

  /** Text without `$` is only stripped of its surrounding whitespace. */
  lemma StripSymbolsPlain(s: string)
    requires '$' !in s
    ensures StripSymbols(s) == Strip(s)
  {
    NotContainsWithout(s, "R$", '$');
    ReplaceMissing(s, "R$", "");
    ReplaceAbsent(s, "$", "");
  }

  /** Without the real's `R`, every `$` goes and the rest is only stripped. */
  lemma StripSymbolsDollar(s: string)
    requires 'R' !in s
    ensures StripSymbols(s) == Strip(Drop(s, '$'))
  {
    ReplaceAbsent(s, "R$", "");
    ReplaceDeleteChar(s, '$');
  }

  /** A leading `R$ ` goes, and the rest is only stripped. */
  lemma StripSymbolsReal(s: string)
    requires 'R' !in s && '$' !in s
    ensures StripSymbols("R$ " + s) == Strip(s)
  {
    DropRealPrefix(s);
    StripLeadingSpace(' ', s);
  }

  /** Decides which separator is the decimal one and leaves a numeral with `.` as its only
      possible separator: with both present, the rightmost kind becomes `.` and the other
      kind is deleted; with only `,` present, every `,` becomes `.`. */
  function Disambiguate(s: string): (r: string)
    ensures ',' !in r
    ensures ',' !in s ==> r == s
  {
    DisambiguateForms(s);
    if ',' in s && '.' in s then
      if RFind(s, ',') > RFind(s, '.') then Replace(Replace(s, ".", ""), ",", ".")
      else Replace(s, ",", "")
    else if ',' in s then Replace(s, ",", ".")
    else s
  }

  /** Deciding the separators keeps the digits, keeps what follows the last separator, and
      leaves as many points as the input had decimal marks of the kind that won. */
  lemma DisambiguateKeeps(s: string)
    ensures var r := Disambiguate(s);
      && Unseparated(r) == Unseparated(s)
      && AfterLastSep(r) == AfterLastSep(s)
      && multiset(r)['.'] == multiset(s)[DecimalMark(s)]
  {
    DisambiguateForms(s);
    if ',' in s && '.' in s {
      if RFind(s, ',') > RFind(s, '.') {
        CommaDecimal(s);
      } else {
        PointDecimal(s);
      }
    } else if ',' in s {
      CommaOnly(s);
    }
  }

  /** The three replace chains of `Disambiguate`, written with `Drop` and `Subst`. */
  lemma DisambiguateForms(s: string)
    ensures Replace(Replace(s, ".", ""), ",", ".") == Subst(Drop(s, '.'), ',', '.')
    ensures Replace(s, ",", "") == Drop(s, ',')
    ensures Replace(s, ",", ".") == Subst(s, ',', '.')
  {
    ReplaceDeleteChar(s, '.');
    ReplaceOneChar(Drop(s, '.'), ',', '.');
    ReplaceDeleteChar(s, ',');
    ReplaceOneChar(s, ',', '.');
  }

  // --- separator bookkeeping -------------------------------------------

  lemma {:induction false} DropCommutes(s: string, a: char, b: char)
    ensures Drop(Drop(s, a), b) == Drop(Drop(s, b), a)
    decreases |s|
  {
    if s != [] {
      DropCommutes(s[1..], a, b);
    }
  }

  lemma DropTwice(s: string, a: char)
    ensures Drop(Drop(s, a), a) == Drop(s, a)
  {
    DropAbsent(Drop(s, a), a);
  }

  lemma {:induction false} UnseparatedSubst(s: string)
    ensures Unseparated(Subst(s, ',', '.')) == Unseparated(s)
    decreases |s|
  {
    if s != [] {
      UnseparatedSubst(s[1..]);
      assert Subst(s, ',', '.')[1..] == Subst(s[1..], ',', '.');
    }
  }

  lemma UnseparatedDrop(s: string, a: char)
    requires IsSep(a)
    ensures Unseparated(Drop(s, a)) == Unseparated(s)
  {
    if a == ',' {
      DropTwice(s, ',');
    } else {
      DropCommutes(Drop(s, '.'), ',', '.');
      DropCommutes(s, ',', '.');
      DropTwice(Drop(s, ','), '.');
      DropCommutes(s, '.', ',');
    }
  }

  lemma {:induction false} AfterLastSepSubst(s: string)
    ensures AfterLastSep(Subst(s, ',', '.')) == AfterLastSep(s)
    decreases |s|
  {
    if s != [] {
      var t := s[..|s| - 1];
      assert s == t + [s[|s| - 1]];
      SubstAppend(t, [s[|s| - 1]], ',', '.');
      var u := Subst(s, ',', '.');
      assert u[..|u| - 1] == Subst(t, ',', '.');
      AfterLastSepSubst(t);
    }
  }

  /** Deleting the kind `x` keeps the digits after the last separator when the last
      separator is of the other kind `y`. */
  lemma {:induction false} AfterLastSepDrop(s: string, x: char, y: char)
    requires IsSep(x) && IsSep(y) && x != y
    requires RFind(s, y) > RFind(s, x)
    ensures AfterLastSep(Drop(s, x)) == AfterLastSep(s)
    decreases |s|
  {
    var t, c := s[..|s| - 1], s[|s| - 1];
    assert s == t + [c];
    DropAppend(t, [c], x);
    var d := Drop(s, x);
    if IsSep(c) {
      assert c == y;
      assert d == Drop(t, x) + [y];
    } else {
      assert d == Drop(t, x) + [c];
      assert d[..|d| - 1] == Drop(t, x);
      AfterLastSepDrop(t, x, y);
    }
  }

  lemma CountDrop(s: string, a: char, b: char)
    ensures multiset(Drop(s, a))[a] == 0
    ensures b != a ==> multiset(Drop(s, a))[b] == multiset(s)[b]
  {
    DropCount(s, a, b);
  }

  lemma {:induction false} DropCount(s: string, a: char, b: char)
    ensures multiset(Drop(s, a))[a] == 0
    ensures b != a ==> multiset(Drop(s, a))[b] == multiset(s)[b]
    decreases |s|
  {
    if s != [] {
      DropCount(s[1..], a, b);
      assert s == [s[0]] + s[1..];
    }
  }

  lemma {:induction false} CountSubst(s: string, a: char, b: char)
    requires a != b
    ensures multiset(Subst(s, a, b))[b] == multiset(s)[a] + multiset(s)[b]
    decreases |s|
  {
    if s != [] {
      CountSubst(s[1..], a, b);
      var t, rest := Subst(s, a, b), Subst(s[1..], a, b);
      assert s == [s[0]] + s[1..];
      assert t == [t[0]] + rest;
      assert multiset(s) == multiset([s[0]]) + multiset(s[1..]);
      assert multiset(t) == multiset([t[0]]) + multiset(rest);
    }
  }

  lemma CommaDecimal(s: string)
    requires ',' in s && '.' in s && RFind(s, ',') > RFind(s, '.')
    ensures var r := Subst(Drop(s, '.'), ',', '.');
      Unseparated(r) == Unseparated(s) && AfterLastSep(r) == AfterLastSep(s)
      && multiset(r)['.'] == multiset(s)[',']
  {
    var d := Drop(s, '.');
    UnseparatedSubst(d);
    UnseparatedDrop(s, '.');
    AfterLastSepSubst(d);
    AfterLastSepDrop(s, '.', ',');
    CountSubst(d, ',', '.');
    CountDrop(s, '.', ',');
  }

  lemma PointDecimal(s: string)
    requires ',' in s && '.' in s && RFind(s, ',') <= RFind(s, '.')
    ensures var r := Drop(s, ',');
      Unseparated(r) == Unseparated(s) && AfterLastSep(r) == AfterLastSep(s)
      && multiset(r)['.'] == multiset(s)['.']
  {
    assert RFind(s, ',') != RFind(s, '.');
    UnseparatedDrop(s, ',');
    AfterLastSepDrop(s, ',', '.');
    CountDrop(s, ',', '.');
  }

  lemma CommaOnly(s: string)
    requires ',' in s && '.' !in s
    ensures var r := Subst(s, ',', '.');
      Unseparated(r) == Unseparated(s) && AfterLastSep(r) == AfterLastSep(s)
      && multiset(r)['.'] == multiset(s)[',']
  {
    UnseparatedSubst(s);
    AfterLastSepSubst(s);
    CountSubst(s, ',', '.');
  }

  // --- rendering ----------------------------------------------------------

  /** `.` and `,` exchanged, every other character kept. */
  function SwapSeps(s: string): (r: string)
    ensures |r| == |s|
  {
    if s == [] then []
    else [if s[0] == '.' then ',' else if s[0] == ',' then '.' else s[0]] + SwapSeps(s[1..])
  }

  /** The replace chain `.`→`#`, `,`→`.`, `#`→`,` that turns the US rendering into the
      Brazilian one. */
  function SwapChain(s: string): string {
    Replace(Replace(Replace(s, ".", "#"), ",", "."), "#", ",")
  }

  lemma {:induction false} SwapSepsPointwise(s: string)
    ensures forall i :: 0 <= i < |s| ==>
      SwapSeps(s)[i] == (if s[i] == '.' then ',' else if s[i] == ',' then '.' else s[i])
    decreases |s|
  {
    if s != [] {
      SwapSepsPointwise(s[1..]);
    }
  }

  /** On text without `#` the replace chain exchanges `.` and `,` and changes nothing else. */
  lemma SwapChainSwaps(s: string)
    requires '#' !in s
    ensures SwapChain(s) == SwapSeps(s)
  {
    ReplaceOneChar(s, '.', '#');
    var a := Subst(s, '.', '#');
    ReplaceOneChar(a, ',', '.');
    var b := Subst(a, ',', '.');
    ReplaceOneChar(b, '#', ',');
    var c := Subst(b, '#', ',');
    SwapSepsPointwise(s);
    assert |c| == |s|;
    forall i | 0 <= i < |s|
      ensures c[i] == SwapSeps(s)[i]
    {
      assert s[i] != '#';
    }
  }

  lemma {:induction false} SwapSepsAppend(a: string, b: string)
    ensures SwapSeps(a + b) == SwapSeps(a) + SwapSeps(b)
    decreases |a|
  {
    if a == [] {
      assert a + b == b;
    } else {
      assert (a + b)[1..] == a[1..] + b;
      SwapSepsAppend(a[1..], b);
    }
  }

  lemma SwapSepsDigits(s: string)
    requires AllDigits(s)
    ensures SwapSeps(s) == s
  {
  }

  lemma {:induction false} SwapSepsGroup(n: nat)
    ensures SwapSeps(Group(n, ',')) == Group(n, '.')
    decreases n
  {
    if n < 1000 {
      SwapSepsDigits(Digits(n));
    } else {
      SwapSepsGroup(n / 1000);
      SwapSepsAppend(Group(n / 1000, ',') + [','], Pad3(n % 1000));
      SwapSepsAppend(Group(n / 1000, ','), [',']);
      SwapSepsDigits(Pad3(n % 1000));
    }
  }

  lemma NoneInDigits(s: string, x: char)
    requires AllDigits(s) && !IsDigit(x)
    ensures x !in s
  {
  }

  /** The characters a rendering of an amount is made of. */
  lemma RenderingAlphabet(c: int, sep: char, x: char)
    requires !IsDigit(sep) && !IsDigit(x) && x != sep && x != '-' && x != ',' && x != '.'
    ensures x !in Group(Abs(c) / 100, sep)
    ensures x !in Sign(c) && x !in Pad2(Abs(c) % 100)
  {
    var g := Group(Abs(c) / 100, sep);
    GroupShape(Abs(c) / 100, sep);
    assert x !in g;
    var p := Pad2(Abs(c) % 100);
    assert x !in p;
  }

  lemma SwapSepsCurrencySymbol()
    ensures SwapSeps("R$ ") == "R$ "
  {
  }

  lemma SwapSepsSign(c: int)
    ensures SwapSeps(Sign(c)) == Sign(c)
  {
  }

  /** Exchanging the separators of the US rendering gives the Brazilian one. */
  lemma SwapUsStyleAmount(c: int)
    ensures SwapSeps(UsStyle(c)) == BrStyle(c)
  {
    var g := Group(Abs(c) / 100, ',');
    var p := Pad2(Abs(c) % 100);
    var sg := Sign(c);
    var front := sg + g;
    assert UsStyle(c) == (front + ".") + p;
    SwapSepsAppend(front + ".", p);
    SwapSepsAppend(front, ".");
    SwapSepsAppend(sg, g);
    SwapSepsSign(c);
    SwapSepsGroup(Abs(c) / 100);
    SwapSepsDigits(p);
    assert BrStyle(c) == (sg + Group(Abs(c) / 100, '.') + ",") + p;
  }

  /** Exchanging the separators of `R$ ` and the US rendering gives the Brazilian one. */
  lemma SwapUsStyle(c: int)
    ensures SwapSeps("R$ " + UsStyle(c)) == "R$ " + BrStyle(c)
  {
    SwapSepsAppend("R$ ", UsStyle(c));
    SwapSepsCurrencySymbol();
    SwapUsStyleAmount(c);
  }

  /** The US rendering holds no `#`, so the replace chain's placeholder is safe. */
  lemma NoPlaceholder(c: int)
    ensures '#' !in "R$ " + UsStyle(c)
  {
    RenderingAlphabet(c, ',', '#');
    assert "R$ " + UsStyle(c) == "R$ " + Sign(c) + Group(Abs(c) / 100, ',') + "." + Pad2(Abs(c) % 100);
  }

  lemma RenderingSwaps(c: int)
    ensures SwapChain("R$ " + UsStyle(c)) == "R$ " + BrStyle(c)
  {
    NoPlaceholder(c);
    SwapChainSwaps("R$ " + UsStyle(c));
    SwapUsStyle(c);
  }

  // --- the normaliser -----------------------------------------------------

  /** The numeral handed to `float`: symbols and whitespace gone, separators decided. */
  function Cleaned(raw: string): string {
    Disambiguate(StripSymbols(raw))
  }

  /** True of the inputs `format_currency` returns before trying to read a number. */
  predicate PassedThrough(raw: string) {
    raw == [] || Contains(raw, "N/A")
  }

  function FormatCurrency(raw: string, toCents: string -> Option<int>): (r: string)
    ensures PassedThrough(raw) ==> r == raw
    ensures toCents(Cleaned(raw)).None? ==> r == raw
    ensures !PassedThrough(raw) && toCents(Cleaned(raw)).Some? ==>
      r == "R$ " + BrStyle(toCents(Cleaned(raw)).value)
  {
    if PassedThrough(raw) then raw
    else
      match toCents(Cleaned(raw))
      case None => raw
      case Some(c) =>
        RenderingSwaps(c);
        SwapChain("R$ " + UsStyle(c))
  }

  // --- reading a formatted amount back --------------------------------------

  /** In the Brazilian rendering the comma before the centavos is the rightmost separator. */
  lemma BrStyleCommaLast(c: int)
    ensures RFind(BrStyle(c), ',') > RFind(BrStyle(c), '.')
  {
    var g := Group(Abs(c) / 100, '.');
    var p := Pad2(Abs(c) % 100);
    var a := Sign(c) + g;
    assert BrStyle(c) == (a + ",") + p;
    RenderingAlphabet(c, '.', 'R');
    NoneInDigits(p, ',');
    NoneInDigits(p, '.');
    RFindAppendAbsent(a + ",", p, ',');
    RFindAppendAbsent(a + ",", p, '.');
    RFindAppendAbsent(a, ",", '.');
    assert (a + ",")[..|a + ","| - 1] == a;
  }

  /** The Brazilian rendering with its thousands points deleted. */
  lemma BrStyleDropPoints(c: int)
    ensures Drop(BrStyle(c), '.') == Sign(c) + Digits(Abs(c) / 100) + "," + Pad2(Abs(c) % 100)
  {
    var u := Abs(c);
    var g := Group(u / 100, '.');
    var p := Pad2(u % 100);
    var sg := Sign(c);
    assert BrStyle(c) == sg + g + "," + p;
    RenderingAlphabet(c, '.', 'R');
    DropAppend(sg + g + ",", p, '.');
    DropAppend(sg + g, ",", '.');
    DropAppend(sg, g, '.');
    DropAbsent(sg, '.');
    DropAbsent(",", '.');
    NoneInDigits(p, '.');
    DropAbsent(p, '.');
    GroupKeepsDigits(u / 100, '.');
  }

  /** The comma of the Brazilian rendering is its last separator, so deciding its separators
      deletes the points and turns the comma into a point. */
  lemma BrStyleDecided(c: int)
    ensures Disambiguate(BrStyle(c)) == Subst(Drop(BrStyle(c), '.'), ',', '.')
  {
    var s := BrStyle(c);
    BrStyleCommaLast(c);
    DisambiguateForms(s);
    if '.' !in s {
      DropAbsent(s, '.');
    }
  }

  /** Turning the comma of sign, digits, comma, two digits into a point gives the plain
      numeral. */
  lemma CommaToPoint(c: int)
    ensures Subst(Sign(c) + Digits(Abs(c) / 100) + "," + Pad2(Abs(c) % 100), ',', '.') == Canonical(c)
  {
    var sg, d, p := Sign(c), Digits(Abs(c) / 100), Pad2(Abs(c) % 100);
    SubstAppend(sg + d + ",", p, ',', '.');
    SubstAppend(sg + d, ",", ',', '.');
    SubstAppend(sg, d, ',', '.');
    NoneInDigits(d, ',');
    NoneInDigits(p, ',');
    SubstAbsent(sg, ',', '.');
    SubstAbsent(d, ',', '.');
    SubstAbsent(p, ',', '.');
    assert Subst(",", ',', '.') == ".";
    assert Canonical(c) == sg + d + "." + p;
  }

  /** The Brazilian rendering, once its separators are decided, is the plain numeral. */
  lemma BrStyleDisambiguates(c: int)
    ensures Disambiguate(BrStyle(c)) == Canonical(c)
  {
    BrStyleDecided(c);
    BrStyleDropPoints(c);
    CommaToPoint(c);
  }

  /** A formatted amount loses its `R$ ` and nothing else when its symbols are stripped. */
  lemma DropRealPrefix(b: string)
    requires 'R' !in b && '$' !in b
    ensures Replace(Replace("R$ " + b, "R$", ""), "$", "") == " " + b
  {
    var s := "R$ " + b;
    assert s[..2] == "R$";
    assert s[2..] == " " + b;
    ReplaceAbsent(" " + b, "R$", "");
    assert Replace(s, "R$", "") == "" + Replace(s[2..], "R$", "");
    assert "" + (" " + b) == " " + b;
    ReplaceAbsent(" " + b, "$", "");
  }

  /** The Brazilian rendering begins with `-` or a digit and ends with a digit. */
  lemma BrStyleTrimmed(c: int)
    ensures BrStyle(c) != [] && !IsSpace(BrStyle(c)[0]) && !IsSpace(BrStyle(c)[|BrStyle(c)| - 1])
  {
    var b := BrStyle(c);
    var g := Group(Abs(c) / 100, '.');
    var p := Pad2(Abs(c) % 100);
    GroupShape(Abs(c) / 100, '.');
    assert b == Sign(c) + g + "," + p;
    assert b[|b| - 1] == p[1];
    assert b[0] == '-' || b[0] == g[0];
  }

  lemma FormattedStripsToBr(c: int)
    ensures StripSymbols("R$ " + BrStyle(c)) == BrStyle(c)
  {
    var b := BrStyle(c);
    RenderingAlphabet(c, '.', 'R');
    RenderingAlphabet(c, '.', '$');
    assert b == Sign(c) + Group(Abs(c) / 100, '.') + "," + Pad2(Abs(c) % 100);
    DropRealPrefix(b);
    StripLeadingSpace(' ', b);
    BrStyleTrimmed(c);
    StripTrimmed(b);
  }

  /** A formatted amount is never mistaken for an "N/A" marker. */
  lemma FormattedHasNoMarker(c: int)
    ensures !PassedThrough("R$ " + BrStyle(c))
  {
    var s := "R$ " + BrStyle(c);
    RenderingAlphabet(c, '.', 'N');
    assert s == "R$ " + Sign(c) + Group(Abs(c) / 100, '.') + "," + Pad2(Abs(c) % 100);
    assert 'N' !in s;
    NotContainsWithoutHead(s, "N/A");
  }

  /** Formatting is idempotent whenever the number reader reads back what it produced: an
      amount it reads from some text it also reads from that amount's plain numeral, so an
      already formatted price reads back as the same amount and renders again the same. */
  lemma FormatIdempotent(raw: string, toCents: string -> Option<int>)
    requires ReadsBackOwn(toCents)
    ensures FormatCurrency(FormatCurrency(raw, toCents), toCents) == FormatCurrency(raw, toCents)
  {
    if !PassedThrough(raw) && toCents(Cleaned(raw)).Some? {
      var c := toCents(Cleaned(raw)).value;
      assert toCents(Canonical(c)) == Some(c);
      ReadIsFixed(raw, c, toCents);
    } else {
      KeptIsFixed(raw, toCents);
    }
  }

  /** Every amount the reader produces, it reads again from that amount's plain numeral.
      Python's `float` followed by two-decimal rounding has this property, apart from
      infinities, NaN and negative zero, even where it is not exact on long numerals. */
  ghost predicate ReadsBackOwn(toCents: string -> Option<int>) {
    forall s, c :: toCents(s) == Some(c) ==> toCents(Canonical(c)) == Some(c)
  }

  /** Text handed back unchanged is handed back unchanged again. */
  lemma KeptIsFixed(raw: string, toCents: string -> Option<int>)
    requires PassedThrough(raw) || toCents(Cleaned(raw)).None?
    ensures FormatCurrency(FormatCurrency(raw, toCents), toCents) == FormatCurrency(raw, toCents)
  {
    assert FormatCurrency(raw, toCents) == raw;
  }

  /** Text read as `c` formats to the rendering of `c`, which the reader reads back as `c`. */
  lemma ReadIsFixed(raw: string, c: int, toCents: string -> Option<int>)
    requires !PassedThrough(raw) && toCents(Cleaned(raw)) == Some(c)
    requires toCents(Canonical(c)) == Some(c)
    ensures FormatCurrency(FormatCurrency(raw, toCents), toCents) == FormatCurrency(raw, toCents)
  {
    assert FormatCurrency(raw, toCents) == "R$ " + BrStyle(c);
    FormattedIsFixed(c, toCents);
  }

  /** A formatted amount reads back as itself and formats to itself. */
  lemma FormattedIsFixed(c: int, toCents: string -> Option<int>)
    requires toCents(Canonical(c)) == Some(c)
    ensures FormatCurrency("R$ " + BrStyle(c), toCents) == "R$ " + BrStyle(c)
  {
    FormattedHasNoMarker(c);
    FormattedStripsToBr(c);
    BrStyleDisambiguates(c);
    assert Cleaned("R$ " + BrStyle(c)) == Canonical(c);
  }

  /** The plain-decimal reader satisfies the hypothesis of `FormatIdempotent`. */
  lemma FormatIdempotentPlain(raw: string)
    ensures FormatCurrency(FormatCurrency(raw, PlainCents), PlainCents) == FormatCurrency(raw, PlainCents)
  {
    forall s, c | PlainCents(s) == Some(c)
      ensures PlainCents(Canonical(c)) == Some(c)
    {
      CanonicalReadsBack(c);
    }
    FormatIdempotent(raw, PlainCents);
  }

  // --- bare renderings --------------------------------------------------------

  /** The US rendering, once its separators are decided, is the plain numeral: its point is
      the last separator, so the thousands commas are deleted. */
  lemma UsStyleDisambiguates(c: int)
    ensures Disambiguate(UsStyle(c)) == Canonical(c)
  {
    var s := UsStyle(c);
    UsStyleShape(c);
    DisambiguateForms(s);
    if ',' !in s {
      DropAbsent(s, ',');
    }
  }

  /** The US rendering begins with `-` or a digit and ends with a digit. */
  lemma UsStyleTrimmed(c: int)
    ensures UsStyle(c) != [] && !IsSpace(UsStyle(c)[0]) && !IsSpace(UsStyle(c)[|UsStyle(c)| - 1])
  {
    var s := UsStyle(c);
    var g := Group(Abs(c) / 100, ',');
    var p := Pad2(Abs(c) % 100);
    GroupShape(Abs(c) / 100, ',');
    assert s == Sign(c) + g + "." + p;
    assert s[|s| - 1] == p[1];
    assert s[0] == '-' || s[0] == g[0];
  }

  /** A bare rendering has no symbols and no surrounding whitespace to remove. */
  lemma UsStyleUnstripped(c: int)
    ensures StripSymbols(UsStyle(c)) == UsStyle(c)
  {
    var s := UsStyle(c);
    RenderingAlphabet(c, ',', '$');
    assert s == Sign(c) + Group(Abs(c) / 100, ',') + "." + Pad2(Abs(c) % 100);
    assert '$' !in s;
    StripSymbolsPlain(s);
    UsStyleTrimmed(c);
    StripTrimmed(s);
  }

  lemma BrStyleUnstripped(c: int)
    ensures StripSymbols(BrStyle(c)) == BrStyle(c)
  {
    var s := BrStyle(c);
    RenderingAlphabet(c, '.', '$');
    assert s == Sign(c) + Group(Abs(c) / 100, '.') + "," + Pad2(Abs(c) % 100);
    assert '$' !in s;
    StripSymbolsPlain(s);
    BrStyleTrimmed(c);
    StripTrimmed(s);
  }

  /** A rendering without `N` is never taken for an "N/A" marker. */
  lemma UnmarkedRendering(c: int, sep: char, mark: char)
    requires !IsDigit(sep) && sep != 'N' && mark != 'N'
    ensures !PassedThrough(Sign(c) + Group(Abs(c) / 100, sep) + [mark] + Pad2(Abs(c) % 100))
  {
    var s := Sign(c) + Group(Abs(c) / 100, sep) + [mark] + Pad2(Abs(c) % 100);
    RenderingAlphabet(c, sep, 'N');
    assert 'N' !in s;
    NotContainsWithoutHead(s, "N/A");
  }

  /** A US-style amount is normalised to the Brazilian rendering of the same amount. */
  lemma FormatsUsStyle(c: int, toCents: string -> Option<int>)
    requires toCents(Canonical(c)) == Some(c)
    ensures FormatCurrency(UsStyle(c), toCents) == "R$ " + BrStyle(c)
  {
    var s := UsStyle(c);
    UnmarkedRendering(c, ',', '.');
    assert s == Sign(c) + Group(Abs(c) / 100, ',') + ['.'] + Pad2(Abs(c) % 100);
    UsStyleUnstripped(c);
    UsStyleDisambiguates(c);
    assert Cleaned(s) == Canonical(c);
  }

  /** A bare Brazilian amount gains its `R$ ` and is otherwise kept. */
  lemma FormatsBrStyle(c: int, toCents: string -> Option<int>)
    requires toCents(Canonical(c)) == Some(c)
    ensures FormatCurrency(BrStyle(c), toCents) == "R$ " + BrStyle(c)
  {
    var s := BrStyle(c);
    UnmarkedRendering(c, '.', ',');
    assert s == Sign(c) + Group(Abs(c) / 100, '.') + [','] + Pad2(Abs(c) % 100);
    BrStyleUnstripped(c);
    BrStyleDisambiguates(c);
    assert Cleaned(s) == Canonical(c);
  }

  /** A US-dollar amount such as "$1,234.56" is normalised to the Brazilian rendering of the
      same amount. */
  lemma FormatsDollarUsStyle(c: int, toCents: string -> Option<int>)
    requires toCents(Canonical(c)) == Some(c)
    ensures FormatCurrency("$" + UsStyle(c), toCents) == "R$ " + BrStyle(c)
  {
    DollarUnmarked(c);
    DollarStripped(c);
    UsStyleDisambiguates(c);
    assert Cleaned("$" + UsStyle(c)) == Canonical(c);
  }

  lemma DollarUnmarked(c: int)
    ensures !PassedThrough("$" + UsStyle(c))
  {
    var u := UsStyle(c);
    RenderingAlphabet(c, ',', 'N');
    assert u == Sign(c) + Group(Abs(c) / 100, ',') + "." + Pad2(Abs(c) % 100);
    assert 'N' !in "$" + u;
    NotContainsWithoutHead("$" + u, "N/A");
  }

  /** The dollar sign goes and the US rendering is left. */
  lemma DollarStripped(c: int)
    ensures StripSymbols("$" + UsStyle(c)) == UsStyle(c)
  {
    var u := UsStyle(c);
    var s := "$" + u;
    RenderingAlphabet(c, ',', '$');
    RenderingAlphabet(c, ',', 'R');
    assert u == Sign(c) + Group(Abs(c) / 100, ',') + "." + Pad2(Abs(c) % 100);
    assert 'R' !in s && '$' !in u;
    StripSymbolsDollar(s);
    assert s[1..] == u;
    assert Drop(s, '$') == Drop(u, '$');
    DropAbsent(u, '$');
    UsStyleTrimmed(c);
    StripTrimmed(u);
  }

  /** The sample prices "49,90", "1.234,56" and "1,234.56" are renderings of 4990 and
      123456 centavos, so `FormatsBrStyle` and `FormatsUsStyle` normalise each of them. */
  lemma SmallRendering()
    ensures BrStyle(4990) == "49,90"
  {
    assert Digits(49) == Digits(4) + [DigitChar(9)];
    assert Pad2(90) == "90";
  }

  lemma ThousandsBr()
    ensures BrStyle(123456) == "1.234,56"
  {
    ThousandsParts();
    assert Group(1234, '.') == Group(1, '.') + ['.'] + Pad3(234);
  }

  lemma ThousandsUs()
    ensures UsStyle(123456) == "1,234.56"
  {
    ThousandsParts();
    assert Group(1234, ',') == Group(1, ',') + [','] + Pad3(234);
  }

  lemma ThousandsParts()
    ensures Abs(123456) / 100 == 1234 && Abs(123456) % 100 == 56 && Sign(123456) == ""
    ensures 1234 / 1000 == 1 && 1234 % 1000 == 234
    ensures Pad3(234) == "234" && Pad2(56) == "56" && Digits(1) == "1"
  {
    assert 234 / 100 == 2 && 234 / 10 % 10 == 3 && 234 % 10 == 4;
  }
}

=== FILE: json.dfy ===
/** Parsed JSON values as Python's `json.loads` hands them over. */
module Json {

  /** A JSON number with a fraction or exponent becomes a Python `float`; `JFloat` carries it
      by its Python `str()` text (for example "49.9"), the only thing the extractor uses. */
  datatype Json =
    | JNull
    | JBool(b: bool)
    | JInt(i: int)
    | JFloat(repr: string)
    | JString(s: string)
    | JArray(items: seq<Json>)
    | JObject(fields: map<string, Json>)

  /** Python truthiness of the parsed value. */
  predicate Truthy(v: Json) {
    match v
    case JNull => false
    case JBool(b) => b
    case JInt(i) => i != 0
    case JFloat(r) => r != "0.0" && r != "-0.0"
    case JString(s) => s != ""
    case JArray(a) => |a| > 0
    case JObject(m) => |m| > 0
  }

  /** Python's `isinstance(v, (int, float))`; `bool` is a subclass of `int`. */
  predicate IsNumber(v: Json) {
    v.JBool? || v.JInt? || v.JFloat?
  }
}

=== FILE: numerals.dfy ===
/** Decimal rendering of amounts held as whole centavos, and the plain-decimal reading of
    such renderings back into centavos. */
module Numerals {
  import opened Wrappers
  import opened Text

  function DigitChar(d: nat): (c: char)
    requires d < 10
    ensures IsDigit(c)
  {
    ('0' as int + d) as char
  }

  /** The decimal digits of `n`, without leading zeros ("0" for zero). */
  function Digits(n: nat): (r: string)
    ensures |r| > 0 && AllDigits(r)
    decreases n
  {
    if n < 10 then [DigitChar(n)] else Digits(n / 10) + [DigitChar(n % 10)]
  }

  /** The number a string of decimal digits denotes ("" denotes zero). */
  function Value(s: string): nat
    requires AllDigits(s)
  {
    if s == [] then 0 else 10 * Value(s[..|s| - 1]) + (s[|s| - 1] as int - '0' as int)
  }

  /** Exactly two digits: the centavos after the decimal separator. */
  function Pad2(n: nat): (r: string)
    requires n < 100
    ensures |r| == 2 && AllDigits(r)
  {
    [DigitChar(n / 10), DigitChar(n % 10)]
  }

  /** Exactly three digits: one thousands group. */
  function Pad3(n: nat): (r: string)
    requires n < 1000
    ensures |r| == 3 && AllDigits(r)
  {
    [DigitChar(n / 100), DigitChar(n / 10 % 10), DigitChar(n % 10)]
  }

  /** The digits of `n` with `sep` between groups of three, counted from the right
      (Python's `,` format option, with `sep` in place of the comma). */
  function Group(n: nat, sep: char): string
    decreases n
  {
    if n < 1000 then Digits(n) else Group(n / 1000, sep) + [sep] + Pad3(n % 1000)
  }

  function Abs(c: int): nat {
    if c < 0 then -c else c
  }

  function Sign(c: int): string {
    if c < 0 then "-" else ""
  }

  /** Python's `f"{v:,.2f}"` for the value of `c` centavos. */
  function UsStyle(c: int): string {
    Sign(c) + Group(Abs(c) / 100, ',') + "." + Pad2(Abs(c) % 100)
  }

  /** The Brazilian convention: `.` between thousands, `,` before the centavos. */
  function BrStyle(c: int): string {
    Sign(c) + Group(Abs(c) / 100, '.') + "," + Pad2(Abs(c) % 100)
  }

  /** The plain decimal numeral of `c` centavos: sign, digits, `.`, two digits. */
  function Canonical(c: int): string {
    Sign(c) + PlainBody(Abs(c))
  }

  /** The unsigned part of the plain numeral of `u` centavos. */
  function PlainBody(u: nat): string {
    Digits(u / 100) + "." + Pad2(u % 100)
  }

  /** The part of Python's `float(s)` followed by rounding to centavos that needs no floating
      point: an optional sign, digits, and an optional `.` followed by at most two digits,
      with at least one digit in all. Anything else is refused. */
  function PlainCents(s: string): Option<int> {
    if |s| > 0 && (s[0] == '-' || s[0] == '+') then
      match UnsignedCents(s[1..])
      case None => None
      case Some(v) =>
        var signed: int := if s[0] == '-' then -(v as int) else v;
        Some(signed)
    else UnsignedCents(s)
  }

  function UnsignedCents(s: string): Option<nat> {
    var k := RFind(s, '.');
    if k < 0 then WholeCents(s) else PointedCents(s[..k], s[k + 1..])
  }

  /** A numeral without a point: digits only, whole units. */
  function WholeCents(s: string): Option<nat> {
    if |s| > 0 && AllDigits(s) then Some(Value(s) * 100) else None
  }

  /** A numeral split at its point: digits before, at most two digits after, one in all. */
  function PointedCents(whole: string, frac: string): Option<nat> {
    if AllDigits(whole) && AllDigits(frac) && |frac| <= 2 && |whole| + |frac| > 0 then
      Some(Value(whole) * 100 + (if |frac| == 0 then 0 else if |frac| == 1 then 10 * Value(frac) else Value(frac)))
    else None
  }

  // ---------------------------------------------------------------------
  // Facts
  // ---------------------------------------------------------------------

  /** `Digits` writes no leading zero: only zero itself begins with "0". */
  lemma {:induction false} DigitsNoLeadingZero(n: nat)
    ensures Digits(n)[0] == '0' <==> n == 0
    decreases n
  {
    if n >= 10 {
      DigitsNoLeadingZero(n / 10);
      assert Digits(n)[0] == Digits(n / 10)[0];
    }
  }

  /** The digits of `n` denote `n`. */
  lemma {:induction false} ValueOfDigits(n: nat)
    ensures Value(Digits(n)) == n
    decreases n
  {
    var last := DigitChar(n % 10);
    assert last as int - '0' as int == n % 10;
    if n >= 10 {
      ValueOfDigits(n / 10);
      var d := Digits(n / 10);
      assert Digits(n) == d + [last];
      assert Digits(n)[..|Digits(n)| - 1] == d;
      assert Digits(n)[|Digits(n)| - 1] == last;
    } else {
      assert Digits(n)[..0] == [];
    }
  }

  lemma ValueOfPad2(n: nat)
    requires n < 100
    ensures Value(Pad2(n)) == n
  {
    var p := Pad2(n);
    assert DigitChar(n / 10) as int - '0' as int == n / 10;
    assert DigitChar(n % 10) as int - '0' as int == n % 10;
    assert p[..1] == [DigitChar(n / 10)];
    assert p[..1][..0] == [];
    assert Value(p[..1]) == n / 10;
  }

  /** The decimal digits of `n` below the thousands are the digits of `n % 1000`. */
  lemma ThousandsDigits(n: nat)
    ensures n / 10 / 10 == n / 100 && n / 100 / 10 == n / 1000
    ensures n % 1000 / 100 == n / 100 % 10
    ensures n % 1000 / 10 % 10 == n / 10 % 10
    ensures n % 1000 % 10 == n % 10
  {
    var a, r := n / 1000, n % 1000;
    assert n == 1000 * a + r;
    assert n / 10 == 100 * a + r / 10;
    assert n / 100 == 10 * a + r / 100;
  }

  /** Four or more digits split into the leading digits and the last group of three. */
  lemma DigitsSplitGroup(n: nat)
    requires n >= 1000
    ensures Digits(n) == Digits(n / 1000) + Pad3(n % 1000)
  {
    var q1, q2, q3 := n / 10, n / 100, n / 1000;
    ThousandsDigits(n);
    var d1, d2, d3 := DigitChar(n % 10), DigitChar(q1 % 10), DigitChar(q2 % 10);
    assert Digits(n) == Digits(q1) + [d1];
    assert Digits(q1) == Digits(q2) + [d2];
    assert Digits(q2) == Digits(q3) + [d3];
    assert Pad3(n % 1000) == [d3, d2, d1];
  }

  /** Grouping only inserts separators: removing them gives back the plain digits of `n`. */
  lemma {:induction false} GroupKeepsDigits(n: nat, sep: char)
    requires !IsDigit(sep)
    ensures Drop(Group(n, sep), sep) == Digits(n)
    decreases n
  {
    if n < 1000 {
      DropAbsent(Digits(n), sep);
    } else {
      GroupKeepsDigits(n / 1000, sep);
      DropAppend(Group(n / 1000, sep) + [sep], Pad3(n % 1000), sep);
      DropAppend(Group(n / 1000, sep), [sep], sep);
      DropAbsent(Pad3(n % 1000), sep);
      DigitsSplitGroup(n);
    }
  }

  /** A grouped numeral is made of digits and the separator, begins and ends with a digit,
      and holds the separator exactly when `n` has four or more digits. */
  lemma {:induction false} GroupShape(n: nat, sep: char)
    requires !IsDigit(sep)
    ensures |Group(n, sep)| > 0
    ensures IsDigit(Group(n, sep)[0]) && IsDigit(Group(n, sep)[|Group(n, sep)| - 1])
    ensures forall i :: 0 <= i < |Group(n, sep)| ==> IsDigit(Group(n, sep)[i]) || Group(n, sep)[i] == sep
    ensures sep in Group(n, sep) <==> n >= 1000
    decreases n
  {
    if n >= 1000 {
      GroupShape(n / 1000, sep);
      var g := Group(n / 1000, sep);
      var p := Pad3(n % 1000);
      assert Group(n, sep) == g + [sep] + p;
      assert Group(n, sep)[|g|] == sep;
    } else {
      assert forall i :: 0 <= i < |Digits(n)| ==> Digits(n)[i] != sep;
    }
  }

  /** Deleting the thousands commas of the US rendering leaves the plain numeral, and its
      point comes after every comma. */
  lemma UsStyleShape(c: int)
    ensures Drop(UsStyle(c), ',') == Canonical(c)
    ensures RFind(UsStyle(c), ',') < RFind(UsStyle(c), '.')
  {
    var sg, g, p := Sign(c), Group(Abs(c) / 100, ','), Pad2(Abs(c) % 100);
    NoSepsInPad2(Abs(c) % 100);
    UsStyleDropsCommas(sg, g, p, Abs(c) / 100);
    assert Canonical(c) == sg + Digits(Abs(c) / 100) + "." + p;
    PointAfterCommas(sg + g, p);
  }

  lemma NoSepsInPad2(n: nat)
    requires n < 100
    ensures ',' !in Pad2(n) && '.' !in Pad2(n)
  {
    var p := Pad2(n);
    forall j | 0 <= j < |p| ensures p[j] != ',' && p[j] != '.' {
      assert IsDigit(p[j]);
    }
  }

  lemma UsStyleDropsCommas(sg: string, g: string, p: string, n: nat)
    requires ',' !in sg && ',' !in p && g == Group(n, ',')
    ensures Drop(sg + g + "." + p, ',') == sg + Digits(n) + "." + p
  {
    DropAppend(sg + g + ".", p, ',');
    DropAppend(sg + g, ".", ',');
    DropAppend(sg, g, ',');
    DropAbsent(sg, ',');
    DropAbsent(".", ',');
    DropAbsent(p, ',');
    GroupKeepsDigits(n, ',');
  }

  lemma PointAfterCommas(a: string, p: string)
    requires ',' !in p && '.' !in p
    ensures RFind(a + "." + p, ',') < RFind(a + "." + p, '.')
  {
    RFindAppendAbsent(a + ".", p, ',');
    RFindAppendAbsent(a + ".", p, '.');
    assert (a + ".")[..|a + "."| - 1] == a;
  }

  /** Digits, a point, then digits: `rfind` finds that point. */
  lemma PointBetweenDigits(d: string, p: string)
    requires AllDigits(d) && AllDigits(p)
    ensures RFind(d + "." + p, '.') == |d|
  {
    assert '.' !in p by {
      forall j | 0 <= j < |p| ensures p[j] != '.' {
        assert IsDigit(p[j]);
      }
    }
    RFindAppendAbsent(d + ".", p, '.');
    assert (d + ".")[|d + "."| - 1] == '.';
  }

  /** Digits, a point and two digits read back as whole units and centavos. */
  lemma PointedReadsBack(d: string, p: string)
    requires AllDigits(d) && AllDigits(p) && |p| == 2
    ensures UnsignedCents(d + "." + p) == Some(Value(d) * 100 + Value(p))
  {
    SplitAtPoint(d, p);
  }

  /** `rfind` splits digits, a point and digits back into the two digit strings. */
  lemma SplitAtPoint(d: string, p: string)
    requires AllDigits(d) && AllDigits(p)
    ensures UnsignedCents(d + "." + p) == PointedCents(d, p)
  {
    var body := d + "." + p;
    PointBetweenDigits(d, p);
    assert body[..|d|] == d;
    assert body[|d| + 1..] == p;
  }

  /** The unsigned part of a plain numeral reads back as its amount. */
  lemma UnsignedReadsBack(u: nat)
    ensures UnsignedCents(PlainBody(u)) == Some(u)
  {
    PointedReadsBack(Digits(u / 100), Pad2(u % 100));
    ValueOfDigits(u / 100);
    ValueOfPad2(u % 100);
  }

  lemma NegativeReadsBack(body: string, u: nat)
    requires UnsignedCents(body) == Some(u)
    ensures PlainCents("-" + body) == Some(-(u as int))
  {
    assert ("-" + body)[1..] == body;
  }

  lemma UnsignedNumeralReadsBack(body: string)
    requires |body| > 0 && IsDigit(body[0])
    ensures PlainCents(body) == UnsignedCents(body)
  {
  }

  /** The plain numeral of an amount reads back as that amount. */
  lemma CanonicalReadsBack(c: int)
    ensures PlainCents(Canonical(c)) == Some(c)
  {
    var u := Abs(c);
    var body := PlainBody(u);
    UnsignedReadsBack(u);
    if c < 0 {
      assert Canonical(c) == "-" + body;
      NegativeReadsBack(body, u);
    } else {
      assert Canonical(c) == body;
      assert body[0] == Digits(u / 100)[0];
      UnsignedNumeralReadsBack(body);
    }
  }
}

=== FILE: pipeline.dfy ===
/** `extract_book_data_full` and `process_ean_list_to_spreadsheet`: the per-EAN merge of
    the metadata record with the formatted prices, and the spreadsheet built from a list of
    EANs. The catalog and model replies for the k-th EAN are the k-th entries of `books` and
    `replies`; the API key is a parameter instead of the environment variable. */
module Pipeline {
  import opened Wrappers
  import opened Text
  import opened Json
  import opened Currency
  import opened Books
  import opened Prices

  /** The price shown when phase 2 produced no such price. */
  const Fallback: string := "N/A (Fase 2 Falhou)"

  /** The courtesy pause after every EAN when an API key is configured. */
  const CourtesyDelay: nat := 5

  const Header: seq<string> :=
    ["EAN/ISBN", "Título do Livro", "Autor(es)", "Editora", "Preço S/ Desc.", "Preço C/ Desc."]

  /** The combined record. The prices are `Json` because a non-string value from the model
      reaches the record unformatted. */
  datatype Combined = Combined(
    ean: string, title: string, authors: string, publisher: string, full: Json, discounted: Json)

  datatype Extraction = Extraction(record: Combined, trace: Trace)

  /** `prices.get(key, Fallback)`. */
  function PriceOr(prices: map<string, Json>, key: string): (v: Json)
    ensures key in prices ==> v == prices[key]
    ensures key !in prices ==> v == JString(Fallback)
  {
    if key in prices then prices[key] else JString(Fallback)
  }

  /** `format_currency` with the given number reader, as a string-to-string function. */
  function Normaliser(toCents: string -> Option<int>): string -> string {
    s => FormatCurrency(s, toCents)
  }

  /** `format` applied to a price value that may not be a string, as written: only
      `ValueError` is caught, so a value without `.replace` raises out of the whole batch
      (`None`). A falsy value and a container holding "N/A" return before that point. */
  function FormatPriceAsWritten(v: Json, format: string -> string): (r: Option<Json>)
    ensures v.JString? ==> r == Some(JString(format(v.s)))
    ensures !v.JString? && !Truthy(v) ==> r == Some(v)
    ensures r.Some? && !v.JString? ==> r == Some(v)
    ensures v.JArray? && |v.items| > 0 ==> (r.Some? <==> JString("N/A") in v.items)
    ensures v.JObject? && |v.fields| > 0 ==> (r.Some? <==> "N/A" in v.fields)
    ensures IsNumber(v) && Truthy(v) ==> r.None?
  {
    match v
    case JString(s) => Some(JString(format(s)))
    case JArray(a) => if |a| == 0 || JString("N/A") in a then Some(v) else None
    case JObject(m) => if |m| == 0 || "N/A" in m then Some(v) else None
    case _ => if Truthy(v) then None else Some(v)
  }

  /** The price formatting the record uses: strings are normalised, every other value is
      kept as it is, so no price value can abort the batch. */
  function FormatPrice(v: Json, format: string -> string): (r: Json)
    ensures v.JString? ==> r == JString(format(v.s))
    ensures !v.JString? ==> r == v
    ensures IsNumber(r) <==> IsNumber(v)
  {
    match v
    case JString(s) => JString(format(s))
    case _ => v
  }

  /** Phase 1, phase 2, and the merge. */
  function ExtractBookDataFull(ean: string, apiKey: string, book: BooksReply, replies: seq<Reply>,
                               toCents: string -> Option<int>, parse: string -> Option<Json>): (e: Extraction)
    ensures e.trace == CallGemini(apiKey, replies, parse)
    ensures var m := SearchBooks(ean, book);
      e.record.ean == ean && e.record.title == m.title && e.record.authors == m.authors
      && e.record.publisher == m.publisher
    ensures Full !in e.trace.prices ==> e.record.full == JString(Fallback)
    ensures Discounted !in e.trace.prices ==> e.record.discounted == JString(Fallback)
    ensures Full in e.trace.prices ==> e.record.full == FormatPrice(e.trace.prices[Full], Normaliser(toCents))
    ensures Discounted in e.trace.prices ==>
      e.record.discounted == FormatPrice(e.trace.prices[Discounted], Normaliser(toCents))
  {
    var meta := SearchBooks(ean, book);
    var trace := CallGemini(apiKey, replies, parse);
    var format := Normaliser(toCents);
    FallbackSurvivesFormatting(toCents);
    var full := FormatPrice(PriceOr(trace.prices, Full), format);
    var discounted := FormatPrice(PriceOr(trace.prices, Discounted), format);
    Extraction(Combined(ean, meta.title, meta.authors, meta.publisher, full, discounted), trace)
  }

  /** The same merge with the price formatting as written: `None` when it raises. */
  function ExtractAsWritten(ean: string, apiKey: string, book: BooksReply, replies: seq<Reply>,
                            toCents: string -> Option<int>, parse: string -> Option<Json>): (r: Option<Combined>)
    ensures r.Some? ==> r.value.ean == ean
  {
    var meta := SearchBooks(ean, book);
    var prices := CallGemini(apiKey, replies, parse).prices;
    var format := Normaliser(toCents);
    match FormatPriceAsWritten(PriceOr(prices, Full), format)
    case None => None
    case Some(full) =>
      match FormatPriceAsWritten(PriceOr(prices, Discounted), format)
      case None => None
      case Some(discounted) => Some(Combined(ean, meta.title, meta.authors, meta.publisher, full, discounted))
  }

  // ---------------------------------------------------------------------
  // Facts about one EAN
  // ---------------------------------------------------------------------

  /** The phase-2 fallback contains "N/A", so the normaliser passes it through. */
  lemma FallbackSurvivesFormatting(toCents: string -> Option<int>)
    ensures Normaliser(toCents)(Fallback) == Fallback
  {
    assert "N/A" <= Fallback;
  }

  /** No price cell ever holds a JSON number: the model's numbers were turned into strings. */
  lemma PricesNeverNumbers(ean: string, apiKey: string, book: BooksReply, replies: seq<Reply>,
                           toCents: string -> Option<int>, parse: string -> Option<Json>)
    ensures var r := ExtractBookDataFull(ean, apiKey, book, replies, toCents, parse).record;
      !IsNumber(r.full) && !IsNumber(r.discounted)
  {
  }

  /** Without an API key both price cells hold the phase-2 fallback. */
  lemma NoKeyFallback(ean: string, book: BooksReply, replies: seq<Reply>,
                      toCents: string -> Option<int>, parse: string -> Option<Json>)
    ensures var r := ExtractBookDataFull(ean, "", book, replies, toCents, parse).record;
      r.full == JString(Fallback) && r.discounted == JString(Fallback)
  {
  }

  /** Where the formatting as written does not raise, it agrees with `FormatPrice`. */
  lemma FormatAgrees(v: Json, format: string -> string)
    requires FormatPriceAsWritten(v, format).Some?
    ensures FormatPriceAsWritten(v, format) == Some(FormatPrice(v, format))
  {
  }

  /** Where the merge as written does not raise, it yields the record of the model. */
  lemma AsWrittenAgrees(ean: string, apiKey: string, book: BooksReply, replies: seq<Reply>,
                        toCents: string -> Option<int>, parse: string -> Option<Json>)
    requires ExtractAsWritten(ean, apiKey, book, replies, toCents, parse).Some?
    ensures ExtractAsWritten(ean, apiKey, book, replies, toCents, parse)
            == Some(ExtractBookDataFull(ean, apiKey, book, replies, toCents, parse).record)
  {
    var prices := CallGemini(apiKey, replies, parse).prices;
    FormatAgrees(PriceOr(prices, Full), Normaliser(toCents));
    FormatAgrees(PriceOr(prices, Discounted), Normaliser(toCents));
  }

  /** A model answer whose full price is a non-empty list without "N/A" (for example
      `["49,90"]`) aborts the merge as written, while the model keeps the list in both price
      cells. The answer may come after any number of rate limits. */
  lemma ListPriceAborts(ean: string, apiKey: string, book: BooksReply, replies: seq<Reply>, k: nat,
                        text: string, price: Json, toCents: string -> Option<int>,
                        parse: string -> Option<Json>)
    requires apiKey != "" && k < MaxRetries
    requires forall j :: 0 <= j < k ==> RateLimited(ReplyAt(replies, j))
    requires ReplyAt(replies, k) == Status(200, Some(text))
    requires price.JArray? && price.items != [] && JString("N/A") !in price.items
    requires parse(StripFences(text)) == Some(JObject(map[Full := price]))
    ensures ExtractAsWritten(ean, apiKey, book, replies, toCents, parse).None?
    ensures var r := ExtractBookDataFull(ean, apiKey, book, replies, toCents, parse).record;
      r.full == price && r.discounted == price
  {
    ListAnswerPrices(apiKey, replies, k, text, price, parse);
  }

  /** A list answer is copied to the discounted price and kept as it is. */
  lemma ListAnswerPrices(apiKey: string, replies: seq<Reply>, k: nat, text: string, price: Json,
                         parse: string -> Option<Json>)
    requires apiKey != "" && k < MaxRetries
    requires forall j :: 0 <= j < k ==> RateLimited(ReplyAt(replies, j))
    requires ReplyAt(replies, k) == Status(200, Some(text))
    requires price.JArray?
    requires parse(StripFences(text)) == Some(JObject(map[Full := price]))
    ensures CallGemini(apiKey, replies, parse).prices == map[Full := price, Discounted := price]
  {
    AnswerAfterRateLimits(replies, k, text, parse);
    var m := map[Full := price];
    assert Discounted != Full;
    assert CoerceAll(m) == m;
    assert PostProcess(text, parse) == m[Discounted := price];
  }

  /** An answer naming only the full price, after any number of rate limits, shows the same
      formatted value in both cells. */
  lemma DiscountMirrorsFull(ean: string, apiKey: string, book: BooksReply, replies: seq<Reply>, k: nat,
                            text: string, toCents: string -> Option<int>, parse: string -> Option<Json>)
    requires apiKey != "" && k < MaxRetries
    requires forall j :: 0 <= j < k ==> RateLimited(ReplyAt(replies, j))
    requires ReplyAt(replies, k) == Status(200, Some(text))
    requires parse(StripFences(text)).Some? && parse(StripFences(text)).value.JObject?
    requires Full in parse(StripFences(text)).value.fields
    requires Discounted !in parse(StripFences(text)).value.fields
    ensures var r := ExtractBookDataFull(ean, apiKey, book, replies, toCents, parse).record;
      r.discounted == r.full
  {
    AnswerAfterRateLimits(replies, k, text, parse);
  }

  // ---------------------------------------------------------------------
  // The batch
  // ---------------------------------------------------------------------

  function BookAt(books: seq<BooksReply>, k: nat): BooksReply {
    if k < |books| then books[k] else Failed(RequestError)
  }

  function RepliesAt(replies: seq<seq<Reply>>, k: nat): seq<Reply> {
    if k < |replies| then replies[k] else []
  }

  /** The six spreadsheet cells of a record, in header order. */
  function Cells(c: Combined): (row: seq<Json>)
    ensures |row| == |Header| == 6
    ensures row[0] == JString(c.ean)
    ensures row[1] == JString(c.title) && row[2] == JString(c.authors)
    ensures row[3] == JString(c.publisher)
    ensures row[4] == c.full && row[5] == c.discounted
  {
    [JString(c.ean), JString(c.title), JString(c.authors), JString(c.publisher), c.full, c.discounted]
  }

  function HeaderRow(): (row: seq<Json>)
    ensures |row| == |Header|
    ensures forall j :: 0 <= j < |row| ==> row[j] == JString(Header[j])
  {
    seq(|Header|, j requires 0 <= j < |Header| => JString(Header[j]))
  }

  /** A spreadsheet row of six cells that begins with the given EAN. */
  predicate RowOf(row: seq<Json>, ean: string) {
    |row| == 6 && row[0] == JString(ean)
  }

  /** The row of the k-th EAN: the cells of its combined record. */
  function BatchRow(eans: seq<string>, k: nat, apiKey: string, books: seq<BooksReply>, replies: seq<seq<Reply>>,
                    toCents: string -> Option<int>, parse: string -> Option<Json>): (row: seq<Json>)
    requires k < |eans|
    ensures RowOf(row, eans[k])
  {
    Cells(ExtractBookDataFull(eans[k], apiKey, BookAt(books, k), RepliesAt(replies, k), toCents, parse).record)
  }

  /** Back-off delays are powers of two and never equal the courtesy delay. */
  lemma Pow2NotCourtesy(k: nat)
    ensures Pow2(k) != CourtesyDelay
  {
  }

  lemma NoCourtesyInBackoff(d: seq<nat>)
    requires forall j :: 0 <= j < |d| ==> d[j] == Pow2(j)
    ensures multiset(d)[CourtesyDelay] == 0
  {
    forall j | 0 <= j < |d|
      ensures d[j] != CourtesyDelay
    {
      Pow2NotCourtesy(j);
    }
  }

  /** The spreadsheet: the header, then one row per EAN in order. `sleeps` lists every pause
      in order (the back-off delays of each call, then the courtesy pause when a key is set);
      `requests` counts the model requests. */
  method ProcessEanList(eans: seq<string>, apiKey: string, books: seq<BooksReply>, replies: seq<seq<Reply>>,
                        toCents: string -> Option<int>, parse: string -> Option<Json>)
    returns (table: seq<seq<Json>>, sleeps: seq<nat>, requests: nat)
    ensures |table| == |eans| + 1
    ensures table[0] == HeaderRow()
    ensures forall k :: 0 <= k < |eans| ==> table[k + 1] == BatchRow(eans, k, apiKey, books, replies, toCents, parse)
    ensures forall k :: 0 <= k < |eans| ==> RowOf(table[k + 1], eans[k])
    ensures multiset(sleeps)[CourtesyDelay] == (if apiKey != "" then |eans| else 0)
    ensures apiKey == "" ==> sleeps == [] && requests == 0
    ensures requests <= MaxRetries * |eans|
  {
    var rows := Tabulate(|eans|, (k: nat) requires k < |eans| => BatchRow(eans, k, apiKey, books, replies, toCents, parse));
    table := [HeaderRow()] + rows;
    assert table[1..] == rows;
    TableRows(table, eans, apiKey, books, replies, toCents, parse);
    sleeps, requests := CollectPauses(eans, apiKey, replies, parse);
  }

  /** `[f(0), ..., f(n - 1)]`, built the way the batch loop appends its rows. */
  method Tabulate<T>(n: nat, f: nat --> T) returns (rows: seq<T>)
    requires forall k :: 0 <= k < n ==> f.requires(k)
    ensures |rows| == n
    ensures forall k :: 0 <= k < n ==> rows[k] == f(k)
  {
    rows := [];
    var i := 0;
    while i < n
      invariant 0 <= i <= n
      invariant |rows| == i
      invariant forall k :: 0 <= k < i ==> rows[k] == f(k)
    {
      rows := rows + [f(i)];
      i := i + 1;
    }
  }

  /** The loop's pauses and model requests: each call's back-off delays, then the courtesy
      pause when a key is set. */
  method CollectPauses(eans: seq<string>, apiKey: string, replies: seq<seq<Reply>>, parse: string -> Option<Json>)
    returns (sleeps: seq<nat>, requests: nat)
    ensures multiset(sleeps)[CourtesyDelay] == (if apiKey != "" then |eans| else 0)
    ensures apiKey == "" ==> sleeps == [] && requests == 0
    ensures requests <= MaxRetries * |eans|
  {
    sleeps := [];
    requests := 0;
    var i := 0;
    while i < |eans|
      invariant 0 <= i <= |eans|
      invariant multiset(sleeps)[CourtesyDelay] == (if apiKey != "" then i else 0)
      invariant apiKey == "" ==> sleeps == [] && requests == 0
      invariant requests <= MaxRetries * i
    {
      var trace := CallGemini(apiKey, RepliesAt(replies, i), parse);
      NoCourtesyInBackoff(trace.delays);
      sleeps := sleeps + trace.delays;
      requests := requests + trace.requests;
      if apiKey != "" {
        sleeps := sleeps + [CourtesyDelay];
      }
      i := i + 1;
    }
  }

  lemma TableRows(table: seq<seq<Json>>, eans: seq<string>, apiKey: string, books: seq<BooksReply>,
                  replies: seq<seq<Reply>>, toCents: string -> Option<int>, parse: string -> Option<Json>)
    requires |table| == |eans| + 1
    requires forall k :: 0 <= k < |eans| ==> table[1..][k] == BatchRow(eans, k, apiKey, books, replies, toCents, parse)
    ensures forall k :: 0 <= k < |eans| ==> table[k + 1] == BatchRow(eans, k, apiKey, books, replies, toCents, parse)
    ensures forall k :: 0 <= k < |eans| ==> RowOf(table[k + 1], eans[k])
  {
    forall k | 0 <= k < |eans|
      ensures table[k + 1] == BatchRow(eans, k, apiKey, books, replies, toCents, parse)
      ensures RowOf(table[k + 1], eans[k])
    {
      assert table[k + 1] == table[1..][k];
    }
  }
}

=== FILE: prices.dfy ===
/** Phase 2 of the extractor, `call_gemini_api_otimizada`: the retry loop around the
    generative-model request and the post-processing of the price object it answers with.

    The HTTP exchange and the walk from the response body to the first candidate's text are
    outside the model: each attempt's outcome arrives as a `Reply`. `json.loads` is the
    parameter `parse`. `time.sleep` is not performed; the delays are recorded instead. */
module Prices {
  import opened Wrappers
  import opened Text
  import opened Numerals
  import opened Json

  const MaxRetries: nat := 3

  /** The key of the full price and of the discounted price in the answer object. */
  const Full: string := "precoSemDesconto"
  const Discounted: string := "precoComDesconto"

  /** What one request came to. `Status(200, Some(t))`: the body held a first candidate
      whose first part has the text `t`. `Status(200, None)`: it did not (no candidates,
      empty parts, a body that is not JSON, a missing `text`). `Raised`: the request itself
      failed (connection error, timeout). */
  datatype Reply = Status(code: int, text: Option<string>) | Raised

  /** The outcome of the whole call: the price object (`map[]` for every failure), the
      back-off delays slept, in order, and the number of requests issued. */
  datatype Trace = Trace(prices: map<string, Json>, delays: seq<nat>, requests: nat)

  // ---------------------------------------------------------------------
  // Post-processing of the answer text
  // ---------------------------------------------------------------------

  /** Removes every "```json" and then every "```", then surrounding whitespace. */
  function StripFences(t: string): (r: string)
    ensures !Contains(r, "```")
  {
    var unfenced := Replace(Replace(t, "```json", ""), "```", "");
    NoFenceLeft(Replace(t, "```json", ""));
    StripKeepsAbsent(unfenced, "```");
    Strip(unfenced)
  }

  /** Text without backticks is only stripped of its surrounding whitespace. */
  lemma StripFencesPlain(t: string)
    requires '`' !in t
    ensures StripFences(t) == Strip(t)
  {
    ReplaceAbsent(t, "```json", "");
    ReplaceAbsent(t, "```", "");
  }

  /** A fenced JSON block loses its fences and keeps its content, stripped. */
  lemma StripFencesBlock(b: string)
    requires '`' !in b
    ensures StripFences("```json" + b + "```") == Strip(b)
  {
    var open, close := "```json", "```";
    var s := open + b + close;
    assert s[..|open|] == open;
    assert s[|open|..] == b + close;
    ReplaceSkipsPrefix(b, close, open, "");
    assert Replace(close, open, "") == close;
    assert Replace(s, open, "") == "" + (b + close);
    assert "" + (b + close) == b + close;
    ReplaceSkipsPrefix(b, close, close, "");
    assert close[..3] == close && close[3..] == [];
    assert Replace(close, close, "") == "";
    assert b + "" == b;
  }

  /** Python's `str(v)` for the values `isinstance(v, (int, float))` accepts; a JSON
      `true`/`false` is a Python `bool`, a subclass of `int`. Other values are kept. */
  function Coerce(v: Json): (r: Json)
    ensures !IsNumber(r)
    ensures IsNumber(v) ==> r.JString?
    ensures !IsNumber(v) ==> r == v
    ensures v.JInt? ==> r == JString(IntText(v.i))
    ensures v.JFloat? ==> r == JString(v.repr)
    ensures v.JBool? ==> r == JString(if v.b then "True" else "False")
  {
    match v
    case JInt(i) => JString(IntText(i))
    case JFloat(t) => JString(t)
    case JBool(b) => JString(if b then "True" else "False")
    case _ => v
  }

  /** Python's `str(i)` for an integer: a minus sign for a negative value, then the decimal
      digits of its magnitude without leading zeros. */
  function IntText(i: int): (r: string)
    ensures i >= 0 ==> r == Digits(i)
    ensures i < 0 ==> r == "-" + Digits(-i)
  {
    Sign(i) + Digits(Abs(i))
  }

  /** The text of an integer begins with "0" only for zero itself, and then it is "0". */
  lemma IntTextCanonical(i: int)
    ensures IntText(i)[0] == '0' <==> i == 0
    ensures i == 0 ==> IntText(i) == "0"
    ensures i != 0 ==> IntText(i)[|Sign(i)|] != '0'
  {
    DigitsNoLeadingZero(Abs(i));
    assert IntText(i)[|Sign(i)|] == Digits(Abs(i))[0];
  }

  function CoerceAll(m: map<string, Json>): (r: map<string, Json>)
    ensures r.Keys == m.Keys
    ensures forall k :: k in m ==> r[k] == Coerce(m[k])
  {
    map k | k in m :: Coerce(m[k])
  }

  /** Adds the discounted price as a copy of the full price when only the latter is there. */
  function FillDiscount(m: map<string, Json>): (r: map<string, Json>)
    ensures r.Keys == m.Keys + (if Full in m then {Discounted} else {})
    ensures forall k :: k in m ==> r[k] == m[k]
    ensures Full in m && Discounted !in m ==> r[Discounted] == m[Full]
  {
    if Discounted !in m && Full in m then m[Discounted := m[Full]] else m
  }

  /** The answer object: `map[]` unless the cleaned text parses to a non-empty object;
      otherwise that object with numbers turned into strings and the discounted price
      filled in. A falsy parse (`{}`, `[]`, `null`, `0`, `""`) is reported as not found; a
      truthy non-object raises in `.items()` and is reported as failure: both are `map[]`. */
  function PostProcess(text: string, parse: string -> Option<Json>): (r: map<string, Json>)
    ensures Answered(parse(StripFences(text))) <==> |r| > 0
    ensures Answered(parse(StripFences(text))) ==>
      var m := parse(StripFences(text)).value.fields;
      && r.Keys == m.Keys + (if Full in m then {Discounted} else {})
      && (forall k :: k in m ==> r[k] == Coerce(m[k]))
      && (Full in m && Discounted !in m ==> r[Discounted] == Coerce(m[Full]))
    ensures forall k :: k in r ==> !IsNumber(r[k])
    ensures Full in r ==> Discounted in r
  {
    match parse(StripFences(text))
    case Some(JObject(m)) => if |m| == 0 then map[] else FillDiscount(CoerceAll(m))
    case _ => map[]
  }

  /** The parse produced a non-empty object. */
  predicate Answered(p: Option<Json>) {
    p.Some? && p.value.JObject? && |p.value.fields| > 0
  }

  /** What a status-200 reply yields. */
  function Answer(text: Option<string>, parse: string -> Option<Json>): (r: map<string, Json>)
    ensures text.None? ==> r == map[]
    ensures text.Some? ==> r == PostProcess(text.value, parse)
  {
    match text
    case None => map[]
    case Some(t) => PostProcess(t, parse)
  }

  // ---------------------------------------------------------------------
  // The retry loop
  // ---------------------------------------------------------------------

  function Pow2(k: nat): (r: nat)
    ensures r >= 1
  {
    if k == 0 then 1 else 2 * Pow2(k - 1)
  }

  /** The reply to request number `i`; a request with no recorded reply counts as failed. */
  function ReplyAt(replies: seq<Reply>, i: nat): Reply {
    if i < |replies| then replies[i] else Raised
  }

  predicate RateLimited(r: Reply) {
    r.Status? && r.code == 429
  }

  /** Attempts `i`, `i + 1`, ... up to `MaxRetries`: a 429 sleeps `2^i` and goes on; a 200
      returns the post-processed answer; any other status or a failed request returns
      `map[]` at once. Running out of attempts returns `map[]`. */
  function Attempt(i: nat, replies: seq<Reply>, parse: string -> Option<Json>): (t: Trace)
    requires i <= MaxRetries
    ensures t.requests <= MaxRetries - i
    ensures i < MaxRetries ==> t.requests >= 1
    ensures |t.delays| <= t.requests
    ensures forall j :: 0 <= j < |t.delays| ==> t.delays[j] == Pow2(i + j)
    decreases MaxRetries - i
  {
    if i == MaxRetries then Trace(map[], [], 0)
    else
      match ReplyAt(replies, i)
      case Raised => Trace(map[], [], 1)
      case Status(code, text) =>
        if code == 200 then Trace(Answer(text, parse), [], 1)
        else if code == 429 then
          var rest := Attempt(i + 1, replies, parse);
          Trace(rest.prices, [Pow2(i)] + rest.delays, rest.requests + 1)
        else Trace(map[], [], 1)
  }

  /** The whole call: no request at all without an API key (`not api_key`). */
  function CallGemini(apiKey: string, replies: seq<Reply>, parse: string -> Option<Json>): (t: Trace)
    ensures apiKey == "" ==> t == Trace(map[], [], 0)
    ensures t.requests <= MaxRetries
    ensures |t.delays| <= t.requests
    ensures forall j :: 0 <= j < |t.delays| ==> t.delays[j] == Pow2(j)
    ensures forall k :: k in t.prices ==> !IsNumber(t.prices[k])
    ensures Full in t.prices ==> Discounted in t.prices
  {
    if apiKey == "" then Trace(map[], [], 0)
    else
      AttemptKeepsShape(0, replies, parse);
      Attempt(0, replies, parse)
  }

  /** Every answer the loop returns came out of `PostProcess`. */
  lemma {:induction false} AttemptKeepsShape(i: nat, replies: seq<Reply>, parse: string -> Option<Json>)
    requires i <= MaxRetries
    ensures var t := Attempt(i, replies, parse);
      (forall k :: k in t.prices ==> !IsNumber(t.prices[k])) && (Full in t.prices ==> Discounted in t.prices)
    decreases MaxRetries - i
  {
    if i < MaxRetries && RateLimited(ReplyAt(replies, i)) {
      AttemptKeepsShape(i + 1, replies, parse);
    }
  }

  // ---------------------------------------------------------------------
  // Facts about the loop
  // ---------------------------------------------------------------------

  /** The first attempt from `i` on whose reply is not a 429, or `MaxRetries`. */
  function Settled(i: nat, replies: seq<Reply>): (k: nat)
    requires i <= MaxRetries
    ensures i <= k <= MaxRetries
    decreases MaxRetries - i
  {
    if i == MaxRetries || !RateLimited(ReplyAt(replies, i)) then i else Settled(i + 1, replies)
  }

  /** The back-off delays `2^i, ..., 2^(k-1)`. */
  function Backoff(i: nat, k: nat): (d: seq<nat>)
    requires i <= k
    ensures |d| == k - i
    decreases k - i
  {
    if i == k then [] else [Pow2(i)] + Backoff(i + 1, k)
  }

  /** The loop in closed form: one request per 429 and one for the reply that settles it,
      a delay of `2^j` for every 429 at attempt `j`, and the answer of that settling reply
      when it is a 200. */
  lemma {:induction false} AttemptClosedForm(i: nat, replies: seq<Reply>, parse: string -> Option<Json>)
    requires i <= MaxRetries
    ensures var k := Settled(i, replies);
      var t := Attempt(i, replies, parse);
      && t.delays == Backoff(i, k)
      && t.requests == k - i + (if k < MaxRetries then 1 else 0)
      && t.prices == (if k < MaxRetries && ReplyAt(replies, k).Status? && ReplyAt(replies, k).code == 200
                      then Answer(ReplyAt(replies, k).text, parse) else map[])
    decreases MaxRetries - i
  {
    if i < MaxRetries && RateLimited(ReplyAt(replies, i)) {
      AttemptClosedForm(i + 1, replies, parse);
    }
  }

  /** Three rate limits in a row: delays 1, 2 and 4, three requests, no prices. */
  lemma ThreeRateLimits(apiKey: string, replies: seq<Reply>, parse: string -> Option<Json>)
    requires apiKey != ""
    requires forall j :: 0 <= j < MaxRetries ==> RateLimited(ReplyAt(replies, j))
    ensures CallGemini(apiKey, replies, parse) == Trace(map[], [1, 2, 4], 3)
  {
    assert RateLimited(ReplyAt(replies, 0));
    assert RateLimited(ReplyAt(replies, 1));
    assert RateLimited(ReplyAt(replies, 2));
  }

  /** A reply that is neither 200 nor 429, or a failed request, stops the loop at once. */
  lemma {:induction false} FailureStops(i: nat, replies: seq<Reply>, parse: string -> Option<Json>)
    requires i < MaxRetries
    requires !RateLimited(ReplyAt(replies, i))
    requires ReplyAt(replies, i).Raised? || ReplyAt(replies, i).code != 200
    ensures Attempt(i, replies, parse) == Trace(map[], [], 1)
  {
  }

  /** Replies after the one that settles the loop are never requested. */
  lemma {:induction false} LaterRepliesUnread(i: nat, replies: seq<Reply>, more: seq<Reply>, parse: string -> Option<Json>)
    requires i <= MaxRetries
    requires Settled(i, replies) < |replies|
    ensures Attempt(i, replies + more, parse) == Attempt(i, replies, parse)
    decreases MaxRetries - i
  {
    if i < MaxRetries {
      assert ReplyAt(replies + more, i) == ReplyAt(replies, i);
      if RateLimited(ReplyAt(replies, i)) {
        LaterRepliesUnread(i + 1, replies, more, parse);
      }
    }
  }

  /** A 429 never produces prices by itself: with a 200 at attempt `k`, the loop returns its
      answer only when every earlier attempt was rate-limited. */
  lemma AnswerAfterRateLimits(replies: seq<Reply>, k: nat, text: string, parse: string -> Option<Json>)
    requires k < MaxRetries
    requires forall j :: 0 <= j < k ==> RateLimited(ReplyAt(replies, j))
    requires ReplyAt(replies, k) == Status(200, Some(text))
    ensures Attempt(0, replies, parse) == Trace(PostProcess(text, parse), Backoff(0, k), k + 1)
  {
    SettledAt(0, k, replies);
    AttemptClosedForm(0, replies, parse);
  }

  lemma {:induction false} SettledAt(i: nat, k: nat, replies: seq<Reply>)
    requires i <= k < MaxRetries
    requires forall j :: i <= j < k ==> RateLimited(ReplyAt(replies, j))
    requires !RateLimited(ReplyAt(replies, k))
    ensures Settled(i, replies) == k
    decreases k - i
  {
    if i < k {
      SettledAt(i + 1, k, replies);
    }
  }

  // ---------------------------------------------------------------------
  // Facts about the post-processing
  // ---------------------------------------------------------------------

  /** An integer price that went through `str()` reads back as that many whole reais. */
  lemma IntPriceReadsBack(i: int)
    ensures PlainCents(Coerce(JInt(i)).s) == Some(i * 100)
  {
    var d := Digits(Abs(i));
    DigitsReadBack(Abs(i));
    if i < 0 {
      assert IntText(i) == "-" + d;
      NegativeReadsBack(d, Abs(i) * 100);
    } else {
      assert IntText(i) == d;
      UnsignedNumeralReadsBack(d);
    }
  }

  /** The digits of `n` read back as `n` whole reais. */
  lemma DigitsReadBack(n: nat)
    ensures UnsignedCents(Digits(n)) == Some(n * 100)
  {
    var d := Digits(n);
    assert '.' !in d by {
      assert forall k :: 0 <= k < |d| ==> IsDigit(d[k]);
    }
    ValueOfDigits(n);
  }

  /** Post-processing a second time changes nothing: coercion and filling are idempotent. */
  lemma ProcessTwice(m: map<string, Json>)
    ensures FillDiscount(CoerceAll(FillDiscount(CoerceAll(m)))) == FillDiscount(CoerceAll(m))
  {
    var once := FillDiscount(CoerceAll(m));
    assert CoerceAll(once) == once;
  }

  // ---------------------------------------------------------------------
  // Fence removal
  // ---------------------------------------------------------------------

  lemma {:induction false} ShortNoContains(s: string, pat: string)
    requires |s| < |pat|
    ensures !Contains(s, pat)
    decreases |s|
  {
    if s != [] {
      ShortNoContains(s[1..], pat);
    }
  }

  /** A character other than the pattern's first is copied and the scan moves on. */
  lemma ReplaceHead(s: string, pat: string, rep: string)
    requires |pat| > 0 && |s| > 0 && s[0] != pat[0]
    ensures Replace(s, pat, rep) == [s[0]] + Replace(s[1..], pat, rep)
  {
    if |s| >= |pat| {
      assert s[..|pat|][0] == s[0];
    } else {
      assert [s[0]] + s[1..] == s;
    }
  }

  /** After removing every "```" no "```" is left: removal leaves each run of backticks
      shorter than three, and runs never merge because only whole runs of three go. */
  lemma {:induction false} NoFenceLeft(s: string)
    ensures !Contains(Replace(s, "```", ""), "```")
    ensures |s| > 0 && s[0] != '`' ==> Replace(s, "```", "") == [s[0]] + Replace(s[1..], "```", "")
    decreases |s|
  {
    var f := "```";
    var r := Replace(s, f, "");
    if |s| < 3 {
      ShortNoContains(s, f);
      if |s| > 0 && s[0] != '`' {
        assert [s[0]] + s[1..] == s;
      }
    } else if s[..3] == f {
      NoFenceLeft(s[3..]);
      assert r == Replace(s[3..], f, "");
    } else {
      NoFenceLeft(s[1..]);
      NoFenceAfterHead(s);
    }
  }

  /** A character that does not start a fence is copied, and the fence-free rest after it
      cannot complete a fence with it. */
  lemma NoFenceAfterHead(s: string)
    requires |s| >= 3 && s[..3] != "```"
    requires !Contains(Replace(s[1..], "```", ""), "```")
    ensures Replace(s, "```", "") == [s[0]] + Replace(s[1..], "```", "")
    ensures !Contains(Replace(s, "```", ""), "```")
  {
    var f := "```";
    var rest := Replace(s[1..], f, "");
    var r := [s[0]] + rest;
    assert Replace(s, f, "") == r;
    NoFenceAtHead(s);
    assert r[1..] == rest;
  }

  /** Removal after a character that does not start a fence leaves no fence at the front:
      a fence in the result can only start at its first character. */
  lemma NoFenceAtHead(s: string)
    requires |s| >= 3 && s[..3] != "```"
    ensures !("```" <= [s[0]] + Replace(s[1..], "```", ""))
  {
    var f := "```";
    var rest := Replace(s[1..], f, "");
    if s[0] == '`' {
      if s[1] != '`' {
        ReplaceHead(s[1..], f, "");
        assert rest[0] == s[1];
      } else {
        assert s[2] != '`' by { assert s[..3] == [s[0], s[1], s[2]]; }
        if |s| == 3 {
          assert rest == s[1..];
        } else {
          assert s[1..][..3] != f by { assert s[1..][..3][1] == s[2]; }
          var tail := s[2..];
          assert s[1..][1..] == tail;
          assert rest == ['`'] + Replace(tail, f, "");
          ReplaceHead(tail, f, "");
        }
        assert rest[1] == s[2];
      }
    }
  }
}

=== FILE: text.dfy ===
/** The few Python `str` operations the extractor relies on, over `string = seq<char>`:
    `replace`, `in` (substring test), `rfind`, `strip`, `isdigit` and `join`. */
module Text {

  /** Python's `s.replace(pat, rep)` for a non-empty `pat`: a left-to-right scan that
      replaces non-overlapping occurrences. */
  function Replace(s: string, pat: string, rep: string): string
    requires |pat| > 0
    decreases |s|
  {
    if |s| < |pat| then s
    else if s[..|pat|] == pat then rep + Replace(s[|pat|..], pat, rep)
    else [s[0]] + Replace(s[1..], pat, rep)
  }

  /** Python's `pat in s` on strings: `pat` occurs somewhere in `s`. */
  predicate Contains(s: string, pat: string)
    decreases |s|
  {
    if pat <= s then true
    else if s == [] then false
    else Contains(s[1..], pat)
  }

  /** Every occurrence of `a` in `s` replaced by `b`, character by character. */
  function Subst(s: string, a: char, b: char): (r: string)
    ensures |r| == |s|
    ensures forall i :: 0 <= i < |s| ==> r[i] == (if s[i] == a then b else s[i])
  {
    if s == [] then [] else [if s[0] == a then b else s[0]] + Subst(s[1..], a, b)
  }

  /** `s` with every `a` removed, the other characters kept in order. */
  function Drop(s: string, a: char): (r: string)
    ensures a !in r
    ensures |r| <= |s|
    ensures forall c :: c in s && c != a ==> c in r
    ensures forall c :: c in r ==> c in s
  {
    if s == [] then [] else if s[0] == a then Drop(s[1..], a) else [s[0]] + Drop(s[1..], a)
  }

  /** Python's `s.rfind(c)`: the index of the last `c`, or -1. */
  function RFind(s: string, c: char): (r: int)
    ensures -1 <= r < |s|
    ensures r == -1 <==> c !in s
    ensures r >= 0 ==> s[r] == c && forall j :: r < j < |s| ==> s[j] != c
  {
    if s == [] then -1
    else if s[|s| - 1] == c then |s| - 1
    else RFind(s[..|s| - 1], c)
  }

  /** A tail without `y` does not move the last `y`. */
  lemma {:induction false} RFindAppendAbsent(a: string, b: string, y: char)
    requires y !in b
    ensures RFind(a + b, y) == RFind(a, y)
    decreases |b|
  {
    if b != [] {
      var b' := b[..|b| - 1];
      assert (a + b)[..|a + b| - 1] == a + b';
      assert b[|b| - 1] in b;
      RFindAppendAbsent(a, b', y);
    } else {
      assert a + b == a;
    }
  }

  /** Python's `str.isspace` for one character. */
  predicate IsSpace(c: char) {
    var n := c as int;
    (9 <= n <= 13) || (28 <= n <= 32) || n == 0x85 || n == 0xA0 || n == 0x1680
    || (0x2000 <= n <= 0x200A) || n == 0x2028 || n == 0x2029 || n == 0x202F
    || n == 0x205F || n == 0x3000
  }

  function StripLeft(s: string): (r: string)
    ensures r == [] || !IsSpace(r[0])
    ensures |r| <= |s| && r == s[|s| - |r|..]
  {
    if s != [] && IsSpace(s[0]) then StripLeft(s[1..]) else s
  }

  function StripRight(s: string): (r: string)
    ensures r == [] || !IsSpace(r[|r| - 1])
    ensures r <= s
  {
    if s != [] && IsSpace(s[|s| - 1]) then StripRight(s[..|s| - 1]) else s
  }

  /** Python's `s.strip()`: leading and trailing whitespace removed. */
  function Strip(s: string): (r: string)
    ensures r == [] || (!IsSpace(r[0]) && !IsSpace(r[|r| - 1]))
  {
    StripRight(StripLeft(s))
  }

  predicate IsDigit(c: char) {
    '0' <= c <= '9'
  }

  predicate AllDigits(s: string) {
    forall i :: 0 <= i < |s| ==> IsDigit(s[i])
  }

  /** Python's `s.isdigit()` restricted to ASCII digits: non-empty and all digits. */
  predicate IsDigits(s: string) {
    |s| > 0 && AllDigits(s)
  }

  /** Python's `sep.join(parts)`. */
  function Join(parts: seq<string>, sep: string): string
    decreases |parts|
  {
    if |parts| == 0 then ""
    else if |parts| == 1 then parts[0]
    else parts[0] + sep + Join(parts[1..], sep)
  }

  // ---------------------------------------------------------------------
  // Facts about the helpers
  // ---------------------------------------------------------------------

  /** Replacing a one-character pattern by one character is `Subst`. */
  lemma {:induction false} ReplaceOneChar(s: string, a: char, b: char)
    ensures Replace(s, [a], [b]) == Subst(s, a, b)
    decreases |s|
  {
    if |s| >= 1 {
      ReplaceOneChar(s[1..], a, b);
      if s[..1] == [a] {
        assert s[1..] == s[|[a]|..];
      }
    }
  }

  /** Replacing a one-character pattern by the empty string is `Drop`. */
  lemma {:induction false} ReplaceDeleteChar(s: string, a: char)
    ensures Replace(s, [a], []) == Drop(s, a)
    decreases |s|
  {
    if |s| >= 1 {
      ReplaceDeleteChar(s[1..], a);
      if s[..1] == [a] {
        assert s[1..] == s[|[a]|..];
      }
    }
  }

  /** A pattern whose first character does not occur leaves the string unchanged. */
  lemma {:induction false} ReplaceAbsent(s: string, pat: string, rep: string)
    requires |pat| > 0 && pat[0] !in s
    ensures Replace(s, pat, rep) == s
    decreases |s|
  {
    if |s| >= |pat| {
      assert s[..|pat|][0] == s[0];
      ReplaceAbsent(s[1..], pat, rep);
      assert [s[0]] + s[1..] == s;
    }
  }

  /** A prefix without the pattern's first character is copied as it is. */
  lemma {:induction false} ReplaceSkipsPrefix(a: string, b: string, pat: string, rep: string)
    requires |pat| > 0 && pat[0] !in a
    ensures Replace(a + b, pat, rep) == a + Replace(b, pat, rep)
    decreases |a|
  {
    if a != [] {
      var s := a + b;
      assert s[0] == a[0] && a[0] in a;
      assert s[1..] == a[1..] + b;
      ReplaceSkipsPrefix(a[1..], b, pat, rep);
      if |s| >= |pat| {
        assert s[..|pat|][0] == s[0];
      }
      assert [a[0]] + a[1..] == a;
    } else {
      assert a + b == b;
    }
  }

  /** A string that does not contain the pattern is left unchanged by replacing it. */
  lemma {:induction false} ReplaceMissing(s: string, pat: string, rep: string)
    requires |pat| > 0 && !Contains(s, pat)
    ensures Replace(s, pat, rep) == s
    decreases |s|
  {
    if |s| >= |pat| {
      assert s[..|pat|] != pat;
      ReplaceMissing(s[1..], pat, rep);
      assert [s[0]] + s[1..] == s;
    }
  }

  /** A string that lacks some character of the pattern does not contain the pattern. */
  lemma {:induction false} NotContainsWithout(s: string, pat: string, c: char)
    requires c in pat && c !in s
    ensures !Contains(s, pat)
    decreases |s|
  {
    if s != [] {
      assert forall x :: x in s[1..] ==> x in s;
      NotContainsWithout(s[1..], pat, c);
    }
  }

  /** A string without the pattern's first character does not contain the pattern. */
  lemma {:induction false} NotContainsWithoutHead(s: string, pat: string)
    requires |pat| > 0 && pat[0] !in s
    ensures !Contains(s, pat)
    decreases |s|
  {
    if s != [] {
      assert s[0] in s;
      NotContainsWithoutHead(s[1..], pat);
    }
  }

  /** Concatenation distributes over `Drop`. */
  lemma {:induction false} DropAppend(a: string, b: string, c: char)
    ensures Drop(a + b, c) == Drop(a, c) + Drop(b, c)
    decreases |a|
  {
    if a != [] {
      assert (a + b)[1..] == a[1..] + b;
      DropAppend(a[1..], b, c);
    } else {
      assert a + b == b;
    }
  }

  /** Concatenation distributes over `Subst`. */
  lemma SubstAppend(a: string, b: string, x: char, y: char)
    ensures Subst(a + b, x, y) == Subst(a, x, y) + Subst(b, x, y)
  {
  }

  /** `Drop` removes nothing from a string that does not hold the character. */
  lemma {:induction false} DropAbsent(s: string, c: char)
    requires c !in s
    ensures Drop(s, c) == s
    decreases |s|
  {
    if s != [] {
      assert s[0] in s;
      DropAbsent(s[1..], c);
      assert [s[0]] + s[1..] == s;
    }
  }

  /** `Subst` changes nothing in a string that does not hold the character. */
  lemma SubstAbsent(s: string, a: char, b: char)
    requires a !in s
    ensures Subst(s, a, b) == s
  {
  }

  /** Stripping a string that already has no whitespace at either end changes nothing. */
  lemma StripTrimmed(s: string)
    requires s == [] || (!IsSpace(s[0]) && !IsSpace(s[|s| - 1]))
    ensures Strip(s) == s
  {
  }

  /** A leading whitespace character is dropped by `strip`. */
  lemma StripLeadingSpace(c: char, s: string)
    requires IsSpace(c)
    ensures Strip([c] + s) == Strip(s)
  {
    assert ([c] + s)[1..] == s;
  }

  /** Whatever `strip` keeps is a contiguous piece of its input: `s[i..j]`. */
  lemma StripBounds(s: string) returns (i: nat, j: nat)
    ensures i <= j <= |s| && Strip(s) == s[i..j]
  {
    var l := StripLeft(s);
    i := |s| - |l|;
    var r := StripRight(l);
    j := i + |r|;
    assert l == s[i..];
    assert r == l[..|r|];
    assert s[i..][..|r|] == s[i..j];
  }

  /** A character a string does not hold is not in its stripped form either. */
  lemma StripKeepsAbsentChar(s: string, c: char)
    requires c !in s
    ensures c !in Strip(s)
  {
    var i, j := StripBounds(s);
  }

  /** What a string does not contain, its stripped form does not contain either. */
  lemma StripKeepsAbsent(s: string, pat: string)
    requires !Contains(s, pat)
    ensures !Contains(Strip(s), pat)
  {
    var i, j := StripBounds(s);
    if Contains(s[i..j], pat) {
      ContainsSlice(s, i, j, pat);
    }
  }

  /** A contiguous piece of a string contains only what the whole string contains. */
  lemma {:induction false} ContainsSlice(s: string, i: int, j: int, pat: string)
    requires 0 <= i <= j <= |s|
    requires Contains(s[i..j], pat)
    ensures Contains(s, pat)
    decreases |s|
  {
    if pat <= s {
    } else if i > 0 {
      assert s[1..][i - 1..j - 1] == s[i..j];
      ContainsSlice(s[1..], i - 1, j - 1, pat);
    } else {
      // `pat` is not a prefix of `s`, so it is not a prefix of `s[..j]` either
      assert s[i..j] != [];
      assert s[i..j][1..] == s[1..][0..j - 1];
      ContainsSlice(s[1..], 0, j - 1, pat);
    }
  }
}

=== FILE: wrappers.dfy ===
/** The optional-value datatype used throughout the model in place of Python's `None`. */
module Wrappers {

  datatype Option<+T> = None | Some(value: T)
}
